=== FILE: README.md ===
# A verified model of the modal-letter Wordle solver

This project models the core of a Wordle solver and its game master in Dafny,
and proves properties of the model.

- **The bot's constraint store** (`wordle_bot.dfy`). The bot keeps its word
  list and its current candidate dictionary. It also keeps one letter-count table
  per letter position and the set of letters known to be in the answer.
  - Green, yellow and black feedback edit the tables.
  - `update_dictionary` keeps, in order, the candidates consistent with the
    tables and the known letters, then recounts the tables from the survivors.
  - `reset` starts a new round from the full word list.
- **The modal-letter bot** (`modal_letter.dfy`). Its guess is a greedy search
  with backtracking. It repeatedly adopts the most frequent letter of an
  unresolved position and narrows the candidate view to the words having it
  there. It caps repeats of that letter elsewhere at count 1. When the next pick
  has no supporting word in the narrowed view, it zeroes that pick and picks
  again. The guess is the first word of the final view.
- **The random-start bot** (`random_start.dfy`). While an update removes no
  candidate, it guesses a random candidate. Otherwise it runs the same greedy
  search.
- **The game master** (`game_master.dfy`). It scores a guess, feeds the marks
  back one position at a time, and plays a bounded round. It also plays many
  rounds and counts how often each score occurs.

Supporting modules:

- `count_table.dfy` holds insertion-ordered count dictionaries, as association
  lists.
- `seqs.dfy` holds order-preserving selection.
- `errors.dfy` holds the exceptions the program raises, as values.

Modelling choices:

- A letter-count table is a sequence of entries. Lookup finds the first entry
  with a key. Assignment overwrites an entry in place or appends one. `pop`
  removes an entry. This is how a Python dict keeps insertion order.
- `value_counts` orders entries by count, largest first. The model orders
  entries of equal count by first occurrence (`CountTable.SortDesc`). pandas
  does not promise any order among equal counts, so this tie order is an
  assumption of the model. The order matters because
  `max(counts, key=counts.get)` returns the first maximal entry in dict order.
- A word survives the update when it agrees with every table and contains every
  known letter (`WordleBot.Consistent`). Narrowing the view keeps, in order, the
  words with the adopted letter at the adopted position (`ModalLetterBot.Narrow`).
- Every raised exception becomes a `Failure` of the `Result` type:
  - `NoCandidates`: the maximum over an empty table, or `index[0]` of an empty
    view.
  - `InvalidGuess`: the `ValueError` of `play` for a guess that is not a valid
    word.
  - `ColumnMismatch`: `reset` builds its frame with five letter columns, so
    words of any other length raise.
  - `NoAttempts`: the loop variable `attempt` is unbound when `attempt_limit <= 1`.
  - `NoAnswers`: the mean of `play_all` divides by zero when there are no answers.
- Index errors the program never handles are caller preconditions. Examples: a
  guess longer than the answer, or a green or yellow mark beyond the last table.
- The random index of the random-start bot is a parameter `pick`. The model
  reduces it modulo the number of candidates.
- The game master plays the modal-letter bot. `GameMaster.Guesses` is the
  sequence of guesses that bot makes against an answer. The scores of `play`
  and `play_all` are stated in terms of it.

Facts about the program that the model keeps:

- Ties between letters go to the first maximal entry in table order.
- A green mark replaces a table with the green letter alone, so it can add a
  letter the table did not hold. `FeedbackGains` states that this is the only
  way a table gains a letter.
- Feedback is applied in position order. A later mark can undo an earlier one,
  for example a green letter refilling a table that a black mark emptied of it.
- For five-letter words and a limit above one, a round whose guesses are all
  valid words but never the answer scores `attempt_limit - 1`, the same as a
  round won on the last attempt. `Play` states when a round ends with a score:
  exactly when the limit is above one, the words have five letters, and the
  bot's guess sequence (`Guesses`) `Completes`, with every guess a valid word
  and the sequence ending at the answer or at the last attempt. Otherwise the
  round fails, with the first error the program meets: `NoCandidates` when the
  bot runs out of candidates, or `InvalidGuess` when it guesses a word the game
  master rejects, during the attempts; then `ColumnMismatch` when `reset` meets
  words of another width; then `NoAttempts` for a limit of one or less, where
  the score is never bound.
- The word list may contain duplicates. The "at most one candidate" result
  (`ResolvedLeavesOne`) needs distinct candidates.
- A round is certain to be won when the words have five letters, every word in
  the bot's list is a valid word, the answer is a candidate consistent with
  the bot's tables and known letters, and the attempt limit exceeds the number
  of candidates (`Winnable`). Each wrong guess removes at least one candidate.
  An answer missing from the word list is never guessed, so such a round is
  not won.

## Model

| member | source | states |
|---|---|---|
| CountTable.Put | wordle/bots/ModalLetter.py:22-25 | `counts[k] = v` overwrites the key's entry in place, or appends it when absent. Keys gain exactly `k`. Other lookups and key order are unchanged. The sum moves by the difference. A dictionary stays a dictionary. |
| CountTable.Remove | wordle/bots/WordleBot.py:86 | `pop(k, None)` removes exactly key `k`. Other lookups are unchanged. A table without `k` is returned unchanged. |
| CountTable.Tally | wordle/bots/WordleBot.py:47 | Counting a column gives one positive entry per distinct letter. Each count is the letter's multiplicity in the column. The counts sum to the column length. |
| CountTable.SortDesc | wordle/bots/WordleBot.py:47 | The `value_counts` order: counts never increase along the table. Keys, sum, entries and lookups are those of the unsorted tally. |
| CountTable.MaxIndex | wordle/bots/ModalLetter.py:62 | `max(counts, key=counts.get)` returns the first entry of greatest count. Every entry is at most its count, and every earlier entry is strictly below it. |
| CountTable.WithoutKeeps | wordle/bots/WordleBot.py:47 | Taking one entry out of a table removes its key and count and leaves every other lookup alone. The sort relies on this. |
| CountTable.TallyPrefix | wordle/WordleGameMaster.py:60 | Counting one more score bumps that score's count (`Bump`), as `results.get(score, 0) + 1` does. |
| Seqs.Filter | wordle/bots/WordleBot.py:63 | A row selection keeps exactly the elements that satisfy the condition, and is no longer than what it selects from. |
| WordleBot.Column | wordle/bots/WordleBot.py:46-47 | A letter column of the frame holds, word by word, the letter each word has at that position. |
| WordleBot.PositionCounts | wordle/bots/WordleBot.py:45-48 | One position's table is a dictionary of positive counts that sum to the number of words, largest first. A letter is present exactly when some word has it there. Its count is its multiplicity in the column. |
| WordleBot.GetCounts | wordle/bots/WordleBot.py:36-49 | `get_counts` gives one such table per letter position. |
| WordleBot.Fresh | wordle/bots/WordleBot.py:113-118 | The state at the start of a round is valid for a non-empty word list. It has one table per letter position, and a letter is in a table exactly when some word has it there. |
| WordleBot.Init | wordle/bots/WordleBot.py:17-34 | The table width is the length of the last word. The word list and the candidates are the given words, the tables are `get_counts` of them, and no letter is known. The state is valid. |
| WordleBot.Reset | wordle/bots/WordleBot.py:113-118 | Fails exactly when the words do not have five letters. Otherwise every word is a candidate again, the tables are the word list's counts, and no letter is known. |
| WordleBot.UpdateDictionary | wordle/bots/WordleBot.py:56-75 | The new candidates are the order-preserving selection `Survivors` of the old ones. A word survives exactly when it was a candidate and is consistent: it agrees with every table and contains every known letter (`Consistent`). The tables are recounted from the survivors and hold no letter they did not hold before. An inconsistent candidate makes the dictionary strictly smaller. All-consistent candidates leave it unchanged. |
| WordleBot.Survivors | wordle/bots/WordleBot.py:62-71 | The selection keeps exactly the consistent words. It is strictly shorter when some word is inconsistent and identical when none is. |
| WordleBot.SurvivorsKeepOrder | wordle/bots/WordleBot.py:62-71 | The selection preserves the candidates' order: it distributes over concatenation. |
| WordleBot.KeysShrink | wordle/bots/WordleBot.py:75 | Tables recounted from consistent words hold only letters the old tables held. |
| WordleBot.Black | wordle/bots/WordleBot.py:77-86 | The letter leaves every table. No other entry, candidate or known letter changes. |
| WordleBot.RemoveEach | wordle/bots/WordleBot.py:85-86 | The loop over the positions pops the letter from each table in turn, and from no other place. |
| WordleBot.Yellow | wordle/bots/WordleBot.py:88-100 | The letter leaves its own position's table and becomes known. Every other table is unchanged. |
| WordleBot.Green | wordle/bots/WordleBot.py:102-111 | The position's table becomes exactly `{letter: 1}`. Every other table is unchanged. |
| WordleBot.CountsAdmitAll | wordle/bots/WordleBot.py:62-63 | Every word agrees with the tables counted from its own list. |
| WordleBot.UpdateIdempotent | wordle/bots/WordleBot.py:56-75 | A second update with no feedback in between changes nothing. |
| WordleBot.FreshIsStable | wordle/bots/WordleBot.py:113-118 | Right after a reset, the update removes no candidate and recounts the same tables. |
| WordleBot.ResetMatchesInit | wordle/bots/WordleBot.py:113-118 | For five-letter words, `reset` rebuilds exactly the state `__init__` built. |
| WordleBot.ResolvedLeavesOne | wordle/bots/WordleBot.py:62-63 | With distinct candidates and every table down to one letter, at most one candidate survives the update. |
| ModalLetterBot.ModalLetter | wordle/bots/ModalLetter.py:49-70 | `__modal_letter` skips tables of size one. It returns a position whose maximum is at least every open position's maximum and strictly above every earlier open position's. The letter is that table's first maximal key with a positive count. It returns the sentinel exactly when no open maximum is positive. |
| ModalLetterBot.ModalStep | wordle/bots/ModalLetter.py:58-67 | One more table scanned: its maximum replaces the pick exactly when it is strictly larger, and the selector's promise carries over to the longer list. |
| ModalLetterBot.PickIsStored | wordle/bots/ModalLetter.py:61-67 | The pick from dictionary tables is a key of its table, stored with the picked count. |
| ModalLetterBot.CapRepeats | wordle/bots/ModalLetter.py:22-25 | Every table holding the letter now counts it once. Keys, their order, table sizes and all other counts are unchanged. |
| ModalLetterBot.Adopt | wordle/bots/ModalLetter.py:22-26 | The picked position becomes `{letter: freq}` and exactly that position closes. Elsewhere the letter counts 1 where it occurs. Other tables keep their keys in the same order, and every other letter's count. |
| ModalLetterBot.NarrowOnce | wordle/bots/ModalLetter.py:21 | Narrowing the view (`Narrow`) by one more letter is narrowing the candidates by the extended list of adopted letters. |
| ModalLetterBot.NarrowStep | wordle/bots/ModalLetter.py:21 | Narrowing the view to a supported letter gives the candidates that match every adopted letter. The result is non-empty and contained in the old view. |
| ModalLetterBot.ZeroStep | wordle/bots/ModalLetter.py:34-37 | Zeroing an infeasible pick keeps every table's keys, their order and the open positions. It removes one positive entry, which bounds the retry. |
| ModalLetterBot.RetryFrom | wordle/bots/ModalLetter.py:34-39 | The feasibility retry as a recursion: zero the pick while the reduced counts lack its letter at its position, and pick again. It ends with a pick that is feasible or the sentinel. Keys, order and open positions are kept, and every changed count is a 0 for a letter the reduced counts lack. |
| ModalLetterBot.Retry | wordle/bots/ModalLetter.py:34-39 | The retry loop computes exactly `RetryFrom` started on the adopted tables, so only the successive infeasible picks are zeroed. |
| ModalLetterBot.Round | wordle/bots/ModalLetter.py:19-39 | One outer round (adopt, narrow, recount, retry) leaves a non-empty view of words of the right length, in which the next pick is supported. It closes one open position. |
| ModalLetterBot.Greedy | wordle/bots/ModalLetter.py:19-43 | The outer loop as a recursion, ending in `view.index[0]`. The guess is a word of the view and carries the current pick. |
| ModalLetterBot.SearchResult | wordle/bots/ModalLetter.py:14-43 | The greedy narrowing started from the candidates and their counts. Its guess is a candidate carrying the overall modal letter at its position. |
| ModalLetterBot.AdoptStep | wordle/bots/ModalLetter.py:19-39 | One pass of the outer loop computes exactly `Round`, so the eventual guess of `Greedy` is unchanged. The view stays the candidates narrowed by the adopted letters, and one open position closes. |
| ModalLetterBot.Search | wordle/bots/ModalLetter.py:14-43 | The greedy narrowing ends, and its guess is exactly `SearchResult`. The guess is the first candidate with every adopted letter, and carries the overall modal letter at its position. |
| ModalLetterBot.ModalGuess | wordle/bots/ModalLetter.py:12-46 | The bot's answer in a state fails exactly when the update leaves no candidate. Otherwise it is a surviving candidate consistent with the tables before the update. |
| ModalLetterBot.Guess | wordle/bots/ModalLetter.py:12-46 | `guess` updates the candidates and fails exactly when none is left. Otherwise it returns `SearchResult` of the survivors: a candidate consistent with the pre-update tables, carrying the first modal letter. |
| RandomStartBot.Guess | RandomStartBot.py:8-48 | When the update removed no candidate, the guess is the candidate at the drawn index. Otherwise it is the modal-letter search's result. The guess is always a surviving consistent candidate. Right after a reset the random branch is taken. |
| GameMaster.ScoreGuess | wordle/WordleGameMaster.py:32-43 | Each mark is green exactly when the letters agree. It is yellow exactly when they differ and the letter occurs in the answer, and black exactly when the letter is absent. |
| GameMaster.AllGreenIffEqual | wordle/WordleGameMaster.py:32-43 | A guess of the answer's length scores all green exactly when it is the answer. |
| GameMaster.ScoreExample | wordle/WordleGameMaster.py:32-43 | Scoring TRACE against CRANE gives black, green, green, yellow, green. |
| GameMaster.Dispatch | wordle/WordleGameMaster.py:46-53 | One mark leaves candidates, word list and width alone. Only a yellow mark adds its letter to the known letters. |
| GameMaster.DispatchTables | wordle/WordleGameMaster.py:46-53 | For one mark: green leaves only the letter at its position. Yellow drops the letter at its position. Black drops the letter from every table. No other letter leaves or enters a table. |
| GameMaster.FeedbackUpTo | wordle/WordleGameMaster.py:45-53 | Feeding back the first `k` marks in position order keeps candidates, word list and width. |
| GameMaster.FeedbackDistinct | wordle/WordleGameMaster.py:45-53 | Every table stays a dictionary (no letter twice) through any prefix of the feedback. |
| GameMaster.FeedbackKnown | wordle/WordleGameMaster.py:50-51 | The known letters after feedback are the old ones plus exactly the yellow letters. |
| GameMaster.FeedbackGains | wordle/WordleGameMaster.py:48-49 | A table gains no letter except the green letter at its own position. |
| GameMaster.FeedbackGreenOnly | wordle/WordleGameMaster.py:48-49 | A green position holds no letter but its own. |
| GameMaster.FeedbackClearsOwn | wordle/WordleGameMaster.py:50-53 | A yellow or black letter is absent from its own position's table afterwards. |
| GameMaster.FeedbackClearsBlack | wordle/WordleGameMaster.py:52-53 | A black letter is absent from every table, except one a later green at that position refills with the same letter. |
| GameMaster.FeedbackResult | wordle/WordleGameMaster.py:45-53 | `feedback_result` applies every position's mark: the yellow letters become known, and every non-green letter leaves its own table. |
| GameMaster.DispatchKeepsAnswer | wordle/WordleGameMaster.py:46-53 | A mark that tells the truth about the answer keeps a consistent answer consistent. |
| GameMaster.FeedbackKeepsAnswer | wordle/WordleGameMaster.py:45-53 | Soundness: truthful feedback never eliminates the answer. |
| GameMaster.WrongGuessShrinks | wordle/WordleGameMaster.py:25-28 | Progress: after feedback on a wrong candidate, the next update removes at least one candidate. |
| GameMaster.MissKeepsAnswer | wordle/WordleGameMaster.py:22-28 | After a wrong guess the answer stays a consistent candidate while the candidates shrink. |
| GameMaster.AfterMiss | wordle/WordleGameMaster.py:19-28 | The bot after a wrong guess, updated and then fed its marks, keeps its word list and width. Its candidates are those of the update. |
| GameMaster.MissAgrees | wordle/WordleGameMaster.py:22-28 | After a wrong guess is scored and fed back, every candidate the next update keeps agrees with its marks: green letters in place, yellow letters elsewhere, black letters nowhere. |
| GameMaster.RecordExtend | wordle/WordleGameMaster.py:22-24 | Appending a scored guess keeps the round's record: every guess is scored, and the round is won exactly when the last guess is the answer. |
| GameMaster.OnTrackGuessable | wordle/WordleGameMaster.py:19-21 | On a winnable round, the answer is always among the updated candidates, and every candidate is a valid word. |
| GameMaster.OnTrackWin | wordle/WordleGameMaster.py:25-26 | A correct guess on a winnable round comes within as many guesses as there were candidates. |
| GameMaster.OnTrackMiss | wordle/WordleGameMaster.py:27-28 | A wrong guess, scored and fed back, keeps the answer and costs a candidate. |
| GameMaster.Guesses | wordle/WordleGameMaster.py:16-28 | The guesses the bot makes against an answer within a number of attempts: no more than the attempts, the first being the bot's own guess. |
| GameMaster.GuessesSound | wordle/WordleGameMaster.py:16-28 | Every guess of the sequence is a candidate of the bot's updated state, of the bot's width. Only the last can be the answer. Each guess agrees with the marks of every earlier one (hard mode). |
| GameMaster.HardModePairs | wordle/WordleGameMaster.py:22-28 | Hard mode, pair by pair: each guess agrees with the marks of every earlier guess. |
| GameMaster.GuessesDistinct | wordle/WordleGameMaster.py:16-28 | Against an answer of the bot's width, the bot never repeats a guess. |
| GameMaster.Attempt | wordle/WordleGameMaster.py:19-28 | One attempt records the bot's guess (`ModalGuess`) with its marks. It is won exactly when the guess is the answer, and a wrong guess leaves the bot as `AfterMiss`. It fails only with no candidate or on a guess that is not a valid word, and neither can happen on a winnable round. |
| GameMaster.Turn | wordle/WordleGameMaster.py:16-28 | One pass of the loop of `play` keeps the round on the bot's guess sequence with one attempt fewer to go. A pass that fails means the guess sequence does not `Completes`, and the error is either no candidate or a rejected guess. |
| GameMaster.StuckIncomplete | wordle/WordleGameMaster.py:16-28 | A round that reaches a bot without candidates, or a guess the game master rejects, before the answer and with attempts left does not `Completes`. |
| GameMaster.IncompleteSeq | wordle/WordleGameMaster.py:16-26 | Guesses not ending at the answer, followed by no guess or by a rejected one, with attempts left, do not `Completes`. |
| GameMaster.RoundSession | wordle/WordleGameMaster.py:16-30 | A finished round read as the session `play` returns: guesses valid and scored, only the last can be the answer, and it is the answer whenever attempts were left. A winnable round is won within as many guesses as there were candidates. |
| GameMaster.Conclude | wordle/WordleGameMaster.py:29-30 | After the loop, an error of the loop is passed on. Otherwise the bot is reset, which fails for a bot of another width, and the score is the number of guesses, unbound when there were none. A score is returned exactly when the limit exceeds one, the width is five, and the loop completed. A `ColumnMismatch` comes only from another width, and `NoAttempts` only from a limit of one or less. |
| GameMaster.Attempts | wordle/WordleGameMaster.py:16 | `range(1, attempt_limit)` makes one attempt fewer than the limit, and none for a limit below one. |
| GameMaster.Guessing | wordle/WordleGameMaster.py:16-28 | The loop of `play` stops at the answer or when the attempts run out. When no attempt fails, its guesses are exactly `Guesses` of the player. It succeeds exactly when that sequence `Completes`: every guess valid, ending at the answer or at the last attempt. It fails only with no candidate or a rejected guess, and only on a round that is not winnable. |
| GameMaster.Play | wordle/WordleGameMaster.py:10-30 | The guesses are exactly `Guesses` of the player within `attempt_limit - 1` attempts, each valid and scored; only the last can be the answer. A score below the cap means the round was won. The bot is reset on normal exit. A limit of one or less fails. A winnable round is won within as many guesses as there were candidates. A score is returned exactly when the limit exceeds one, the words have five letters, and `Guesses` `Completes`. Otherwise, with such a limit and width, the error is no candidate or a rejected guess. A `ColumnMismatch` comes only from another width, and `NoAttempts` only from a limit of one or less. |
| GameMaster.FreshWinnable | wordle/WordleGameMaster.py:57-58 | A freshly reset bot, with fewer words than the default limit, all valid and including the answer, faces a winnable round. |
| GameMaster.RoundScore | wordle/WordleGameMaster.py:58-59 | One round at the default limit scores the number of guesses the bot makes, between 1 and 19. It leaves the bot reset, and a winnable round scores at most the number of candidates. It succeeds exactly when the round `Plays`: five-letter words, and `Guesses` `Completes` at the default limit. |
| GameMaster.RoundScoresAt | wordle/WordleGameMaster.py:57-59 | The score `play_all` records for answer `i` is the number of guesses made on it by the player for the first answer, and by the reset bot for every later one. |
| GameMaster.NextRound | wordle/WordleGameMaster.py:57-60 | One round of `play_all` appends its score to the scores so far, keeping them a prefix of the scores of all rounds. It succeeds exactly when the round `Plays`, and the next round starts from the reset bot (`RoundBot`). A round that is assured to be won does not fail. |
| GameMaster.PlayRounds | wordle/WordleGameMaster.py:57-60 | The rounds of `play_all` record exactly the score of each answer in order, each between 1 and 19. They succeed exactly when every round `Plays` with its bot, the player first and the reset bot after (`AllPlay`). A fresh bot whose words include every answer wins every round within its word count. |
| GameMaster.PlayAll | wordle/WordleGameMaster.py:55-65 | The histogram counts each score's occurrences over the rounds, the score of each answer being that of its round. Its counts sum to the number of answers, and its keys lie between 1 and 19. No answers fails. It succeeds exactly when there are answers and every round `Plays` with its bot. A fresh bot covering every answer wins every round within its word count. |
| GameMaster.Histogram | wordle/WordleGameMaster.py:56-60 | Bumping the histogram once per score gives the tally of the scores. |

## Left out

- Verbose printing, the bot's name, and `tqdm` progress bars are not modelled. They have no effect on the results.
- The float mean of `play_all` and its `sorted` copy of the histogram are not modelled. The model returns the histogram in insertion order and fails only where the mean divides by zero.
- `max_attempts` of `play_all` only selects rounds to print, so it is not modelled.
- Upper-casing of answers and guesses (`upper()`) is not modelled: words are taken to be upper case already.
- The random draw of the random-start bot is a parameter `pick`, not a random number.
- The pandas frame is not modelled. Candidates are a sequence of words, and a column is the sequence of letters at one position.
- Duplicate-letter scoring as the real game does it is not modelled. The game master's simplified per-position rule is modelled as written.
- RandomBot.py and wordle/bots/Random.py (the purely random bots), wordle_frequency.py, the tests and setup.py are outside the modelled core.
- A failing verbose branch of `play_all`, which reads the missing key `stats`, is not modelled because printing is left out.
- WordleBot.Init: requires a non-empty word list whose words all have the last word's length. The program crashes on an empty list, and pandas pads or raises on ragged words.
- GameMaster.ScoreGuess: requires the guess to be no longer than the answer, because the program raises an index error otherwise.
- GameMaster.Play: requires the answer to be at least as long as the bot's words, because scoring indexes the answer at every guessed position. The game is instantiated with the modal-letter bot.
- The random-start bot's own `modal_letter` (RandomStartBot.py:51-72) is not modelled separately. It is the same code as `__modal_letter`, so the model reuses `ModalLetterBot.ModalLetter` and the same greedy search.
- The game master is modelled only with the modal-letter bot as its player. The random bots would need a source of random draws per attempt.

=== FILE: count_table.dfy ===
/**
 Count tables: the insertion-ordered dictionaries from a key to a count that the
 solver uses for its per-position letter frequencies and the game master for its
 score histogram. A table is a sequence of entries; lookup finds the first entry
 with the key, assignment overwrites that entry in place or appends a new one at
 the end, exactly as a dictionary keeps its insertion order.
 */
module CountTable {

  /** One key of a table together with its count. */
  datatype Entry<K> = Entry(key: K, count: int)

  type Table<K> = seq<Entry<K>>

  /** The keys present in a table. */
  function Keys<K(==,!new)>(t: Table<K>): set<K>
  {
    if |t| == 0 then {} else {t[0].key} + Keys(t[1..])
  }

  predicate Has<K(==,!new)>(t: Table<K>, k: K)
  {
    k in Keys(t)
  }

  /** No key occurs twice: the table is a dictionary. */
  predicate DistinctKeys<K(==,!new)>(t: Table<K>)
  {
    |t| == 0 || (t[0].key !in Keys(t[1..]) && DistinctKeys(t[1..]))
  }

  /** Every stored count is at least one. */
  predicate Positive<K(==,!new)>(t: Table<K>)
  {
    forall e {:trigger e in t} :: e in t ==> e.count >= 1
  }

  /** The count stored for `k`, or 0 when `k` is absent. */
  function Get<K(==,!new)>(t: Table<K>, k: K): int
  {
    if |t| == 0 then 0 else if t[0].key == k then t[0].count else Get(t[1..], k)
  }

  /** The sum of all counts. */
  function Sum<K(==,!new)>(t: Table<K>): int
  {
    if |t| == 0 then 0 else t[0].count + Sum(t[1..])
  }

  /** The number of entries whose count is positive. */
  function PositiveEntries<K(==,!new)>(t: Table<K>): nat
  {
    if |t| == 0 then 0 else (if t[0].count > 0 then 1 else 0) + PositiveEntries(t[1..])
  }

  /** The two tables list the same keys in the same order. */
  predicate SameOrder<K(==,!new)>(a: Table<K>, b: Table<K>)
  {
    |a| == |b| && forall i :: 0 <= i < |a| ==> a[i].key == b[i].key
  }

  /** `t[k] = v`: overwrite the entry of `k` in place, or append it when absent. */
  function Put<K(==,!new)>(t: Table<K>, k: K, v: int): (r: Table<K>)
    ensures Keys(r) == Keys(t) + {k}
    ensures Get(r, k) == v
    ensures forall k' :: k' != k ==> Get(r, k') == Get(t, k')
    ensures Sum(r) == Sum(t) - Get(t, k) + v
    ensures Has(t, k) ==> |r| == |t| && forall i :: 0 <= i < |t| ==> r[i].key == t[i].key
    ensures !Has(t, k) ==> r == t + [Entry(k, v)]
    ensures forall e :: e in r ==> e in t || e == Entry(k, v)
    ensures DistinctKeys(t) ==> DistinctKeys(r)
  {
    if |t| == 0 then [Entry(k, v)]
    else if t[0].key == k then [Entry(k, v)] + t[1..]
    else [t[0]] + Put(t[1..], k, v)
  }

  /** `t.pop(k, None)`: drop the entry of `k`; a table without `k` is returned as is. */
  function Remove<K(==,!new)>(t: Table<K>, k: K): (r: Table<K>)
    ensures Keys(r) == Keys(t) - {k}
    ensures forall k' :: k' != k ==> Get(r, k') == Get(t, k')
    ensures forall e :: e in r ==> e in t
    ensures !Has(t, k) ==> r == t
    ensures DistinctKeys(t) ==> DistinctKeys(r)
  {
    if |t| == 0 then []
    else if t[0].key == k then Remove(t[1..], k)
    else [t[0]] + Remove(t[1..], k)
  }

  /** `t[k] = t.get(k, 0) + 1`. */
  function Bump<K(==,!new)>(t: Table<K>, k: K): Table<K>
  {
    Put(t, k, Get(t, k) + 1)
  }

  /**
   The table of occurrence counts of a sequence, keys in order of first
   occurrence: one entry per distinct element, counting how often it occurs.
   */
  function Tally<K(==,!new)>(xs: seq<K>): (t: Table<K>)
    ensures DistinctKeys(t)
    ensures Positive(t)
    ensures forall k :: Has(t, k) <==> k in xs
    ensures forall k :: Get(t, k) == multiset(xs)[k]
    ensures Sum(t) == |xs|
  {
    if |xs| == 0 then []
    else
      var prefix := xs[..|xs| - 1];
      var last := xs[|xs| - 1];
      assert xs == prefix + [last];
      GetAbsent(Tally(prefix), last);
      Bump(Tally(prefix), last)
  }

  /** `max(t, key=t.get)`: the index of the first entry with the largest count. */
  function MaxIndex<K(==,!new)>(t: Table<K>): (r: nat)
    requires |t| > 0
    ensures r < |t|
    ensures forall i :: 0 <= i < |t| ==> t[i].count <= t[r].count
    ensures forall i :: 0 <= i < r ==> t[i].count < t[r].count
  {
    if |t| == 1 then 0
    else
      var m := MaxIndex(t[..|t| - 1]);
      if t[|t| - 1].count > t[m].count then |t| - 1 else m
  }

  /** The table without its entry at index `i`. */
  function Without<K>(t: Table<K>, i: nat): Table<K>
    requires i < |t|
  {
    t[..i] + t[i + 1..]
  }

  /**
   The order `value_counts` gives its counts: largest count first. The first
   maximal entry is taken out and the rest ordered the same way, so entries of
   equal count keep their relative order.
   */
  function SortDesc<K(==,!new)>(t: Table<K>): (r: Table<K>)
    ensures |r| == |t|
    ensures Keys(r) == Keys(t) && Sum(r) == Sum(t)
    ensures forall e :: e in r ==> e in t
    ensures forall i, j :: 0 <= i < j < |r| ==> r[i].count >= r[j].count
    ensures DistinctKeys(t) ==> DistinctKeys(r) && forall k :: Get(r, k) == Get(t, k)
    decreases |t|
  {
    if |t| == 0 then []
    else
      var m := MaxIndex(t);
      var rest := SortDesc(Without(t, m));
      WithoutKeeps(t, m);
      PrependSorted(t, m, rest);
      Prepend(t[m], rest);
      if DistinctKeys(t) then PrependLookup(t, m, rest); [t[m]] + rest else [t[m]] + rest
  }

  /** The keys, the sum and the entries of a table with one entry put in front. */
  lemma Prepend<K(!new)>(e: Entry<K>, rest: Table<K>)
    ensures Keys([e] + rest) == {e.key} + Keys(rest)
    ensures Sum([e] + rest) == e.count + Sum(rest)
    ensures forall x :: x in [e] + rest <==> x == e || x in rest
  {
    assert ([e] + rest)[1..] == rest;
  }

  /** The largest entry in front of a descending rest of the table keeps the order descending. */
  lemma PrependSorted<K(!new)>(t: Table<K>, m: nat, rest: Table<K>)
    requires m < |t| && forall i :: 0 <= i < |t| ==> t[i].count <= t[m].count
    requires forall e :: e in rest ==> e in t
    requires forall i, j :: 0 <= i < j < |rest| ==> rest[i].count >= rest[j].count
    ensures forall i, j :: 0 <= i < j < |rest| + 1 ==> ([t[m]] + rest)[i].count >= ([t[m]] + rest)[j].count
  {
    var r := [t[m]] + rest;
    forall i, j | 0 <= i < j < |r|
      ensures r[i].count >= r[j].count
    {
      assert r[j] == rest[j - 1] && rest[j - 1] in rest;
      var x :| 0 <= x < |t| && t[x] == r[j];
      if i > 0 {
        assert r[i] == rest[i - 1];
      }
    }
  }

  /** The entry of a fresh key in front of a dictionary: still a dictionary, with that key's lookup added. */
  lemma PrependLookup<K(!new)>(t: Table<K>, m: nat, rest: Table<K>)
    requires m < |t| && DistinctKeys(t)
    requires DistinctKeys(rest) && t[m].key !in Keys(rest)
    requires forall k :: k != t[m].key ==> Get(rest, k) == Get(t, k)
    ensures DistinctKeys([t[m]] + rest)
    ensures forall k :: Get([t[m]] + rest, k) == Get(t, k)
  {
    GetAt(t, m);
    assert ([t[m]] + rest)[1..] == rest;
  }

  /** The largest count of a non-empty table. */
  function MaxCount<K(==,!new)>(t: Table<K>): int
    requires |t| > 0
  {
    t[MaxIndex(t)].count
  }

  lemma GetAbsent<K(!new)>(t: Table<K>, k: K)
    ensures !Has(t, k) ==> Get(t, k) == 0
    ensures Positive(t) && Has(t, k) ==> Get(t, k) >= 1
  {
    if |t| > 0 {
      GetAbsent(t[1..], k);
      assert t[0] in t;
      assert forall e :: e in t[1..] ==> e in t;
    }
  }

  /** A key is present exactly when some entry carries it. */
  lemma {:induction false} KeysAt<K(!new)>(t: Table<K>, k: K)
    ensures Has(t, k) <==> exists i :: 0 <= i < |t| && t[i].key == k
  {
    if |t| > 0 {
      KeysAt(t[1..], k);
      if Has(t[1..], k) {
        var i :| 0 <= i < |t[1..]| && t[1..][i].key == k;
        assert t[i + 1].key == k;
      }
      if exists i :: 0 <= i < |t| && t[i].key == k {
        var i :| 0 <= i < |t| && t[i].key == k;
        if i > 0 {
          assert t[1..][i - 1].key == k;
        }
      }
    }
  }

  /** In a dictionary the lookup of an entry's key yields that entry's count. */
  lemma {:induction false} GetAt<K(!new)>(t: Table<K>, i: nat)
    requires DistinctKeys(t)
    requires i < |t|
    ensures Has(t, t[i].key)
    ensures Get(t, t[i].key) == t[i].count
  {
    KeysAt(t, t[i].key);
    if i > 0 {
      GetAt(t[1..], i - 1);
      assert t[1..][i - 1] == t[i];
    }
  }

  /** Zeroing a positive entry removes exactly one positive entry. */
  lemma {:induction false} ZeroingPositive<K(!new)>(t: Table<K>, k: K)
    requires Has(t, k)
    requires Get(t, k) > 0
    ensures PositiveEntries(Put(t, k, 0)) == PositiveEntries(t) - 1
  {
    if t[0].key != k {
      assert Has(t[1..], k);
      ZeroingPositive(t[1..], k);
    }
  }

  /**
   Dropping the entry at index `i` drops its key and its count, and leaves the
   lookup of every other key alone.
   */
  lemma {:induction false} WithoutKeeps<K(!new)>(t: Table<K>, i: nat)
    requires i < |t|
    ensures |Without(t, i)| == |t| - 1
    ensures Keys(t) == Keys(Without(t, i)) + {t[i].key}
    ensures Sum(t) == Sum(Without(t, i)) + t[i].count
    ensures forall e :: e in Without(t, i) ==> e in t
    ensures forall k :: k != t[i].key ==> Get(Without(t, i), k) == Get(t, k)
    ensures DistinctKeys(t) ==> DistinctKeys(Without(t, i)) && t[i].key !in Keys(Without(t, i))
  {
    assert t == [t[0]] + t[1..];
    Prepend(t[0], t[1..]);
    if i == 0 {
      assert Without(t, i) == t[1..];
    } else {
      WithoutKeeps(t[1..], i - 1);
      assert Without(t, i) == [t[0]] + Without(t[1..], i - 1);
      Prepend(t[0], Without(t[1..], i - 1));
      assert Without(t, i)[1..] == Without(t[1..], i - 1);
      assert t[1..][i - 1] == t[i];
    }
  }

  /** Counting one more element of a sequence bumps that element's count. */
  lemma TallyPrefix<K(!new)>(xs: seq<K>, i: nat)
    requires i < |xs|
    ensures Tally(xs[..i + 1]) == Bump(Tally(xs[..i]), xs[i])
  {
    assert xs[..i + 1][..i] == xs[..i];
  }
}

=== FILE: errors.dfy ===
/** The exceptions the solver and the game master raise, as values. */
module Errors {

  datatype Error =
    | NoCandidates          // a guess was requested while no candidate word remains
    | InvalidGuess(guess: string)  // the game master rejected a guess outside its valid words
    | ColumnMismatch        // the word table is rebuilt with five letter columns for words of another length
    | NoAttempts            // an attempt limit of one or less leaves the attempt counter unbound
    | NoAnswers             // the mean score over an empty list of answers divides by zero

  datatype Result<+T> = Success(value: T) | Failure(error: Error)
}

=== FILE: game_master.dfy ===
/**
 The game master: it scores a guess against the answer, feeds the marks back to
 the bot one position at a time, plays a bounded round with the modal-letter
 bot, and tallies the scores of many rounds into a histogram.
 */
module GameMaster {
  import opened CountTable
  import opened Seqs
  import opened Errors
  import opened WordleBot
  import opened ModalLetterBot

  /** A feedback mark: green, yellow or black. */
  datatype Mark = G | Y | B

  /** The result of one round: its score, the marks of every guess, and the guesses. */
  datatype Session = Session(score: int, results: seq<seq<Mark>>, guesses: seq<Word>)

  /** The attempt limit `play_all` leaves at its default. */
  const MaxAttempts: int := 20

  /**
   `score_guess`: green where the letters agree, yellow where the guessed letter
   occurs elsewhere in the answer, black where it does not occur at all. A
   repeated letter is marked by this rule at every position, without counting
   occurrences.
   */
  function ScoreGuess(answer: Word, guess: Word): (r: seq<Mark>)
    requires |guess| <= |answer|
    ensures |r| == |guess|
    ensures forall i :: 0 <= i < |guess| ==> (r[i] == G <==> guess[i] == answer[i])
    ensures forall i :: 0 <= i < |guess| ==> (r[i] == Y <==> guess[i] != answer[i] && guess[i] in answer)
    ensures forall i :: 0 <= i < |guess| ==> (r[i] == B <==> guess[i] !in answer)
  {
    seq(|guess|, i requires 0 <= i < |guess| => if guess[i] == answer[i] then G else if guess[i] in answer then Y else B)
  }

  /** A guess of the answer's length is all green exactly when it is the answer. */
  lemma AllGreenIffEqual(answer: Word, guess: Word)
    requires |guess| == |answer|
    ensures (forall i :: 0 <= i < |guess| ==> ScoreGuess(answer, guess)[i] == G) <==> guess == answer
  {
    if forall i :: 0 <= i < |guess| ==> ScoreGuess(answer, guess)[i] == G {
      forall i | 0 <= i < |guess|
        ensures guess[i] == answer[i]
      {
        assert ScoreGuess(answer, guess)[i] == G;
      }
    }
  }

  /** Guessing TRACE against CRANE: T is absent, C is misplaced, R, A and E agree. */
  lemma ScoreExample()
    ensures ScoreGuess("CRANE", "TRACE") == [B, G, G, Y, G]
  {
    assert "TRACE"[0] !in "CRANE";
    assert "TRACE"[3] == "CRANE"[0];
  }

  /** Every mark other than black names a position the bot has a table for. */
  predicate Addressable(b: Bot, guess: Word, results: seq<Mark>)
  {
    && |results| >= |guess|
    && forall i :: 0 <= i < |guess| && results[i] != B ==> i < |b.letterCounts|
  }

  /**
   The bot edit for one mark at position `p`: a green resolves the position to
   the letter, a yellow drops the letter from the position and makes it known,
   a black drops the letter from every position.
   */
  function Dispatch(b: Bot, c: char, p: nat, mark: Mark): (r: Bot)
    requires mark != B ==> p < |b.letterCounts|
    ensures r.wordList == b.wordList && r.dictionary == b.dictionary
    ensures |r.letterCounts| == |b.letterCounts|
    ensures r.known == if mark == Y then b.known + {c} else b.known
  {
    match mark
    case G => Green(b, c, p)
    case Y => Yellow(b, c, p)
    case B => Black(b, c)
  }

  /**
   The letters each table holds after one mark: a green position holds exactly
   its letter, a yellow letter leaves its own position, a black letter leaves
   every position, and every other letter stays where it was.
   */
  lemma DispatchTables(b: Bot, c: char, p: nat, mark: Mark)
    requires mark != B ==> p < |b.letterCounts|
    ensures forall q, x :: 0 <= q < |b.letterCounts| ==>
        (Has(Dispatch(b, c, p, mark).letterCounts[q], x) <==>
          if mark == G && q == p then x == c
          else Has(b.letterCounts[q], x) && !(x == c && (mark == B || q == p)))
  {
  }

  /** The marks of the first `k` positions fed back in position order; the candidates are untouched. */
  function FeedbackUpTo(b: Bot, guess: Word, results: seq<Mark>, k: nat): (r: Bot)
    requires k <= |guess| && Addressable(b, guess, results)
    ensures r.wordList == b.wordList && r.dictionary == b.dictionary
    ensures |r.letterCounts| == |b.letterCounts|
    decreases k
  {
    if k == 0 then b
    else Dispatch(FeedbackUpTo(b, guess, results, k - 1), guess[k - 1], k - 1, results[k - 1])
  }

  /** Every table is a dictionary. */
  predicate TablesDistinct(counts: Counts)
  {
    forall q :: 0 <= q < |counts| ==> DistinctKeys(counts[q])
  }

  /** Feedback keeps every table a dictionary. */
  lemma {:induction false} FeedbackDistinct(b: Bot, guess: Word, results: seq<Mark>, k: nat)
    requires k <= |guess| && Addressable(b, guess, results)
    requires TablesDistinct(b.letterCounts)
    ensures TablesDistinct(FeedbackUpTo(b, guess, results, k).letterCounts)
  {
    if k > 0 {
      FeedbackDistinct(b, guess, results, k - 1);
      DistinctStep(FeedbackUpTo(b, guess, results, k - 1), guess[k - 1], k - 1, results[k - 1]);
    }
  }

  /** One mark keeps every table a dictionary. */
  lemma DistinctStep(b: Bot, c: char, p: nat, mark: Mark)
    requires mark != B ==> p < |b.letterCounts|
    requires TablesDistinct(b.letterCounts)
    ensures TablesDistinct(Dispatch(b, c, p, mark).letterCounts)
  {
    var r := Dispatch(b, c, p, mark);
    forall q | 0 <= q < |r.letterCounts|
      ensures DistinctKeys(r.letterCounts[q])
    {
      if mark == G && q == p {
        assert r.letterCounts[q] == [Entry(c, 1)];
      } else if mark == B || q == p {
        assert r.letterCounts[q] == Remove(b.letterCounts[q], c);
      } else {
        assert r.letterCounts[q] == b.letterCounts[q];
      }
    }
  }

  /** Some position before `k` marks the letter yellow. */
  predicate MarkedYellow(guess: Word, results: seq<Mark>, k: nat, c: char)
    requires k <= |guess| <= |results|
  {
    exists i :: 0 <= i < k && results[i] == Y && guess[i] == c
  }

  /** The one-letter step of `FeedbackKnown`. */
  lemma KnownStep(b: Bot, prev: Bot, guess: Word, results: seq<Mark>, k: nat)
    requires 0 < k <= |guess| <= |results|
    requires results[k - 1] != B ==> k - 1 < |prev.letterCounts|
    requires forall c :: c in prev.known <==> c in b.known || MarkedYellow(guess, results, k - 1, c)
    ensures forall c :: c in Dispatch(prev, guess[k - 1], k - 1, results[k - 1]).known <==>
      c in b.known || MarkedYellow(guess, results, k, c)
  {
    var r := Dispatch(prev, guess[k - 1], k - 1, results[k - 1]);
    forall c
      ensures c in r.known <==> c in b.known || MarkedYellow(guess, results, k, c)
    {
      if results[k - 1] == Y && guess[k - 1] == c {
        assert MarkedYellow(guess, results, k, c);
      } else if MarkedYellow(guess, results, k, c) {
        var i :| 0 <= i < k && results[i] == Y && guess[i] == c;
        assert MarkedYellow(guess, results, k - 1, c);
      }
    }
  }

  /** The known letters after the feedback are those before plus every yellow letter. */
  lemma {:induction false} FeedbackKnown(b: Bot, guess: Word, results: seq<Mark>, k: nat)
    requires k <= |guess| && Addressable(b, guess, results)
    ensures forall c :: c in FeedbackUpTo(b, guess, results, k).known <==>
      c in b.known || MarkedYellow(guess, results, k, c)
  {
    if k > 0 {
      FeedbackKnown(b, guess, results, k - 1);
      KnownStep(b, FeedbackUpTo(b, guess, results, k - 1), guess, results, k);
    }
  }

  /** The one-letter step of `FeedbackGains`. */
  lemma GainsStep(b: Bot, prev: Bot, guess: Word, results: seq<Mark>, k: nat)
    requires 0 < k <= |guess| <= |results| && |prev.letterCounts| == |b.letterCounts|
    requires results[k - 1] != B ==> k - 1 < |prev.letterCounts|
    requires forall p, c :: 0 <= p < |b.letterCounts| && Has(prev.letterCounts[p], c) ==>
      Has(b.letterCounts[p], c) || (p < k - 1 && results[p] == G && c == guess[p])
    ensures forall p, c :: 0 <= p < |b.letterCounts| && Has(Dispatch(prev, guess[k - 1], k - 1, results[k - 1]).letterCounts[p], c) ==>
        Has(b.letterCounts[p], c) || (p < k && results[p] == G && c == guess[p])
  {
    var r := Dispatch(prev, guess[k - 1], k - 1, results[k - 1]);
    DispatchTables(prev, guess[k - 1], k - 1, results[k - 1]);
    forall p, c | 0 <= p < |b.letterCounts| && Has(r.letterCounts[p], c)
      ensures Has(b.letterCounts[p], c) || (p < k && results[p] == G && c == guess[p])
    {
      if !(p == k - 1 && results[p] == G) {
        assert Has(prev.letterCounts[p], c);
      }
    }
  }

  /** A table gains no letter except the green one at its own position. */
  lemma {:induction false} FeedbackGains(b: Bot, guess: Word, results: seq<Mark>, k: nat)
    requires k <= |guess| && Addressable(b, guess, results)
    ensures forall p, c :: 0 <= p < |b.letterCounts| && Has(FeedbackUpTo(b, guess, results, k).letterCounts[p], c) ==>
        Has(b.letterCounts[p], c) || (p < k && results[p] == G && c == guess[p])
  {
    if k > 0 {
      FeedbackGains(b, guess, results, k - 1);
      GainsStep(b, FeedbackUpTo(b, guess, results, k - 1), guess, results, k);
    }
  }

  /** The table holds no letter but `c`. */
  predicate HoldsOnly(t: Table<char>, c: char)
  {
    forall x :: Has(t, x) ==> x == c
  }

  /** The one-letter step of `FeedbackGreenOnly`. */
  lemma GreenOnlyStep(prev: Bot, guess: Word, results: seq<Mark>, k: nat)
    requires 0 < k <= |guess| <= |results|
    requires forall i :: 0 <= i < k && results[i] != B ==> i < |prev.letterCounts|
    requires forall i :: 0 <= i < k - 1 && results[i] == G ==> HoldsOnly(prev.letterCounts[i], guess[i])
    ensures forall i :: 0 <= i < k && results[i] == G ==> HoldsOnly(Dispatch(prev, guess[k - 1], k - 1, results[k - 1]).letterCounts[i], guess[i])
  {
    var r := Dispatch(prev, guess[k - 1], k - 1, results[k - 1]);
    DispatchTables(prev, guess[k - 1], k - 1, results[k - 1]);
    forall i | 0 <= i < k && results[i] == G
      ensures HoldsOnly(r.letterCounts[i], guess[i])
    {
      if i < k - 1 {
        assert HoldsOnly(prev.letterCounts[i], guess[i]);
      }
    }
  }

  /** A green position holds no letter but its own. */
  lemma {:induction false} FeedbackGreenOnly(b: Bot, guess: Word, results: seq<Mark>, k: nat)
    requires k <= |guess| && Addressable(b, guess, results)
    ensures forall i :: 0 <= i < k && results[i] == G ==> HoldsOnly(FeedbackUpTo(b, guess, results, k).letterCounts[i], guess[i])
  {
    if k > 0 {
      FeedbackGreenOnly(b, guess, results, k - 1);
      GreenOnlyStep(FeedbackUpTo(b, guess, results, k - 1), guess, results, k);
    }
  }

  /** The one-letter step of `FeedbackClearsOwn`. */
  lemma ClearsOwnStep(prev: Bot, guess: Word, results: seq<Mark>, k: nat)
    requires 0 < k <= |guess| <= |results|
    requires results[k - 1] != B ==> k - 1 < |prev.letterCounts|
    requires forall i :: 0 <= i < k - 1 && results[i] != G && i < |prev.letterCounts| ==> !Has(prev.letterCounts[i], guess[i])
    ensures forall i :: 0 <= i < k && results[i] != G && i < |prev.letterCounts| ==> !Has(Dispatch(prev, guess[k - 1], k - 1, results[k - 1]).letterCounts[i], guess[i])
  {
    var r := Dispatch(prev, guess[k - 1], k - 1, results[k - 1]);
    DispatchTables(prev, guess[k - 1], k - 1, results[k - 1]);
    forall i | 0 <= i < k && results[i] != G && i < |prev.letterCounts|
      ensures !Has(r.letterCounts[i], guess[i])
    {
      if i < k - 1 {
        assert !Has(prev.letterCounts[i], guess[i]);
      }
    }
  }

  /** A letter marked yellow or black leaves its own position's table. */
  lemma {:induction false} FeedbackClearsOwn(b: Bot, guess: Word, results: seq<Mark>, k: nat)
    requires k <= |guess| && Addressable(b, guess, results)
    ensures forall i :: 0 <= i < k && results[i] != G && i < |b.letterCounts| ==> !Has(FeedbackUpTo(b, guess, results, k).letterCounts[i], guess[i])
  {
    if k > 0 {
      FeedbackClearsOwn(b, guess, results, k - 1);
      ClearsOwnStep(FeedbackUpTo(b, guess, results, k - 1), guess, results, k);
    }
  }

  /** The one-letter step of `FeedbackClearsBlack`. */
  lemma ClearsBlackStep(prev: Bot, guess: Word, results: seq<Mark>, k: nat)
    requires 0 < k <= |guess| <= |results|
    requires results[k - 1] != B ==> k - 1 < |prev.letterCounts|
    requires forall i, p :: 0 <= i < k - 1 && results[i] == B && 0 <= p < |prev.letterCounts| ==>
      (i < p < k - 1 && results[p] == G && guess[p] == guess[i]) || !Has(prev.letterCounts[p], guess[i])
    ensures forall i, p :: 0 <= i < k && results[i] == B && 0 <= p < |prev.letterCounts| ==>
        (i < p < k && results[p] == G && guess[p] == guess[i]) || !Has(Dispatch(prev, guess[k - 1], k - 1, results[k - 1]).letterCounts[p], guess[i])
  {
    var r := Dispatch(prev, guess[k - 1], k - 1, results[k - 1]);
    DispatchTables(prev, guess[k - 1], k - 1, results[k - 1]);
    forall i, p | 0 <= i < k && results[i] == B && 0 <= p < |prev.letterCounts| && !(i < p < k && results[p] == G && guess[p] == guess[i])
      ensures !Has(r.letterCounts[p], guess[i])
    {
      if i < k - 1 && !(p == k - 1 && results[p] == G) {
        assert !Has(prev.letterCounts[p], guess[i]);
      }
    }
  }

  /** A black letter leaves every table that no later green at that position refills. */
  lemma {:induction false} FeedbackClearsBlack(b: Bot, guess: Word, results: seq<Mark>, k: nat)
    requires k <= |guess| && Addressable(b, guess, results)
    ensures forall i, p :: 0 <= i < k && results[i] == B && 0 <= p < |b.letterCounts| ==>
        (i < p < k && results[p] == G && guess[p] == guess[i]) || !Has(FeedbackUpTo(b, guess, results, k).letterCounts[p], guess[i])
  {
    if k > 0 {
      FeedbackClearsBlack(b, guess, results, k - 1);
      ClearsBlackStep(FeedbackUpTo(b, guess, results, k - 1), guess, results, k);
    }
  }

  /** `feedback_result`: every position's mark, in position order. */
  function FeedbackResult(b: Bot, guess: Word, results: seq<Mark>): (r: Bot)
    requires Addressable(b, guess, results)
    ensures r.wordList == b.wordList && r.dictionary == b.dictionary
    ensures |r.letterCounts| == |b.letterCounts|
    ensures forall c :: c in r.known <==> c in b.known || exists i :: 0 <= i < |guess| && results[i] == Y && guess[i] == c
    ensures forall i :: 0 <= i < |guess| && results[i] != G && i < |b.letterCounts| ==> !Has(r.letterCounts[i], guess[i])
    ensures Valid(b) ==> Valid(r)
  {
    FeedbackKnown(b, guess, results, |guess|);
    FeedbackClearsOwn(b, guess, results, |guess|);
    if Valid(b) then
      FeedbackDistinct(b, guess, results, |guess|);
      FeedbackUpTo(b, guess, results, |guess|)
    else
      FeedbackUpTo(b, guess, results, |guess|)
  }

  /** The mark is what the answer says of letter `c` at position `p`. */
  predicate TruthfulMark(answer: Word, c: char, p: nat, mark: Mark)
    requires p < |answer|
  {
    && (mark == G ==> c == answer[p])
    && (mark == Y ==> c != answer[p] && c in answer)
    && (mark == B ==> c !in answer)
  }

  /** Every mark is what the answer says of the guessed letter at its position. */
  predicate Truthful(answer: Word, guess: Word, results: seq<Mark>)
    requires |guess| <= |answer| && |guess| <= |results|
  {
    forall i :: 0 <= i < |guess| ==> TruthfulMark(answer, guess[i], i, results[i])
  }

  /** One truthful mark keeps a consistent answer consistent. */
  lemma DispatchKeepsAnswer(b: Bot, answer: Word, c: char, p: nat, mark: Mark)
    requires |answer| == |b.letterCounts| && p < |answer|
    requires TruthfulMark(answer, c, p, mark)
    requires Consistent(answer, b.letterCounts, b.known)
    ensures Consistent(answer, Dispatch(b, c, p, mark).letterCounts, Dispatch(b, c, p, mark).known)
  {
    var r := Dispatch(b, c, p, mark);
    DispatchTables(b, c, p, mark);
    forall q | 0 <= q < |answer|
      ensures Has(r.letterCounts[q], answer[q])
    {
      assert Has(b.letterCounts[q], answer[q]);
    }
  }

  /** The answer is consistent with the bot's tables and known letters. */
  predicate Admits(b: Bot, answer: Word)
  {
    Consistent(answer, b.letterCounts, b.known)
  }

  /** The one-letter step of `FeedbackKeepsAnswer`. */
  lemma KeepsAnswerStep(b: Bot, answer: Word, guess: Word, results: seq<Mark>, k: nat)
    requires |guess| == |answer| == |b.letterCounts| == |results|
    requires Truthful(answer, guess, results)
    requires 0 < k <= |guess|
    requires Admits(FeedbackUpTo(b, guess, results, k - 1), answer)
    ensures Admits(FeedbackUpTo(b, guess, results, k), answer)
  {
    var prev := FeedbackUpTo(b, guess, results, k - 1);
    assert TruthfulMark(answer, guess[k - 1], k - 1, results[k - 1]);
    DispatchKeepsAnswer(prev, answer, guess[k - 1], k - 1, results[k - 1]);
    assert FeedbackUpTo(b, guess, results, k) == Dispatch(prev, guess[k - 1], k - 1, results[k - 1]);
  }

  /**
   Soundness of the feedback: when every mark tells the truth about the answer,
   an answer consistent with the bot before stays consistent after.
   */
  lemma {:induction false} FeedbackKeepsAnswer(b: Bot, answer: Word, guess: Word, results: seq<Mark>, k: nat)
    requires |guess| == |answer| == |b.letterCounts| == |results|
    requires Truthful(answer, guess, results)
    requires k <= |guess|
    requires Admits(b, answer)
    ensures Admits(FeedbackUpTo(b, guess, results, k), answer)
  {
    if k > 0 {
      FeedbackKeepsAnswer(b, answer, guess, results, k - 1);
      KeepsAnswerStep(b, answer, guess, results, k);
    }
  }

  /**
   Progress: a wrong candidate, once scored against the answer, is inconsistent
   with the fed-back tables, so the next update removes at least one candidate.
   */
  lemma WrongGuessShrinks(b: Bot, answer: Word, guess: Word)
    requires Valid(b)
    requires |guess| == |answer| == |b.letterCounts|
    requires guess in b.dictionary && guess != answer
    ensures |UpdateDictionary(FeedbackResult(b, guess, ScoreGuess(answer, guess))).dictionary| < |b.dictionary|
  {
    var results := ScoreGuess(answer, guess);
    var r := FeedbackResult(b, guess, results);
    var i :| 0 <= i < |guess| && guess[i] != answer[i];
    assert !Has(r.letterCounts[i], guess[i]);
    assert !Consistent(guess, r.letterCounts, r.known);
  }

  /**
   What makes a round winnable: five-letter words, an answer still among the
   candidates and consistent with the tables, every word of the list accepted by
   the game master, and no more candidates than attempts.
   */
  predicate Winnable(validWords: set<Word>, answer: Word, player: Bot, attemptLimit: int)
  {
    && Valid(player)
    && |answer| == |player.letterCounts| == 5
    && answer in player.dictionary
    && Consistent(answer, player.letterCounts, player.known)
    && (forall w :: w in player.wordList ==> w in validWords)
    && |player.dictionary| <= attemptLimit - 1
  }

  /**
   The record of a round so far: every guess is a known word of the bot's length
   scored against the answer, only the last guess can be the answer, and the
   round is won exactly when it is.
   */
  predicate Record(validWords: set<Word>, answer: Word, n: nat, guesses: seq<Word>, stats: seq<seq<Mark>>, won: bool)
    requires n <= |answer|
  {
    && |guesses| == |stats|
    && (forall i :: 0 <= i < |guesses| ==> guesses[i] in validWords && |guesses[i]| == n)
    && (forall i :: 0 <= i < |guesses| ==> stats[i] == ScoreGuess(answer, guesses[i]))
    && (forall i :: 0 <= i < |guesses| - 1 ==> guesses[i] != answer)
    && (won <==> |guesses| > 0 && guesses[|guesses| - 1] == answer)
  }

  /** Recording one more guess of a round not yet won. */
  lemma RecordExtend(validWords: set<Word>, answer: Word, n: nat, guesses: seq<Word>, stats: seq<seq<Mark>>, guess: Word)
    requires n <= |answer|
    requires Record(validWords, answer, n, guesses, stats, false)
    requires guess in validWords && |guess| == n
    ensures Record(validWords, answer, n, guesses + [guess], stats + [ScoreGuess(answer, guess)], guess == answer)
  {
    var guesses', stats' := guesses + [guess], stats + [ScoreGuess(answer, guess)];
    assert forall i :: 0 <= i < |guesses| ==> guesses'[i] == guesses[i] && stats'[i] == stats[i];
  }

  /**
   On a winnable round, the answer survives every update and each wrong guess
   costs a candidate, so the guesses made plus the candidates left never exceed
   the candidates at the start.
   */
  predicate OnTrack(validWords: set<Word>, answer: Word, player: Bot, attemptLimit: int, bot: Bot, k: nat, won: bool)
  {
    && Valid(bot) && bot.wordList == player.wordList && |bot.letterCounts| == |player.letterCounts|
    && (Winnable(validWords, answer, player, attemptLimit) && !won ==>
          && answer in bot.dictionary && Consistent(answer, bot.letterCounts, bot.known)
          && |UpdateDictionary(bot).dictionary| + k <= |player.dictionary|)
    && (Winnable(validWords, answer, player, attemptLimit) && won ==> k <= |player.dictionary|)
  }

  /** On a winnable round the bot always has a candidate, and every candidate is a known word. */
  lemma OnTrackGuessable(validWords: set<Word>, answer: Word, player: Bot, attemptLimit: int, bot: Bot, k: nat)
    requires OnTrack(validWords, answer, player, attemptLimit, bot, k, false)
    requires Winnable(validWords, answer, player, attemptLimit)
    ensures answer in UpdateDictionary(bot).dictionary
    ensures forall w :: w in UpdateDictionary(bot).dictionary ==> w in validWords
  {
  }

  /** A correct guess ends a winnable round within as many guesses as there were candidates. */
  lemma OnTrackWin(validWords: set<Word>, answer: Word, player: Bot, attemptLimit: int, bot: Bot, k: nat)
    requires OnTrack(validWords, answer, player, attemptLimit, bot, k, false)
    ensures OnTrack(validWords, answer, player, attemptLimit, UpdateDictionary(bot), k + 1, true)
  {
    if Winnable(validWords, answer, player, attemptLimit) {
      OnTrackGuessable(validWords, answer, player, attemptLimit, bot, k);
    }
  }

  /**
   A wrong candidate scored against an answer among the candidates: the answer
   survives the feedback and the next update, which removes the guess.
   */
  lemma MissKeepsAnswer(updated: Bot, answer: Word, guess: Word)
    requires Valid(updated)
    requires |guess| == |answer| == |updated.letterCounts|
    requires guess in updated.dictionary && guess != answer
    requires answer in updated.dictionary && Consistent(answer, updated.letterCounts, updated.known)
    ensures var next := FeedbackResult(updated, guess, ScoreGuess(answer, guess));
      && answer in next.dictionary && Consistent(answer, next.letterCounts, next.known)
      && |UpdateDictionary(next).dictionary| < |updated.dictionary|
  {
    var results := ScoreGuess(answer, guess);
    assert Truthful(answer, guess, results);
    FeedbackKeepsAnswer(updated, answer, guess, results, |guess|);
    WrongGuessShrinks(updated, answer, guess);
  }

  /** A wrong guess, scored and fed back, keeps a winnable round on track. */
  lemma OnTrackMiss(validWords: set<Word>, answer: Word, player: Bot, attemptLimit: int, bot: Bot, k: nat, guess: Word)
    requires OnTrack(validWords, answer, player, attemptLimit, bot, k, false)
    requires |player.letterCounts| <= |answer|
    requires guess in UpdateDictionary(bot).dictionary && guess != answer
    ensures |guess| == |bot.letterCounts|
    ensures var updated := UpdateDictionary(bot);
      OnTrack(validWords, answer, player, attemptLimit, FeedbackResult(updated, guess, ScoreGuess(answer, guess)), k + 1, false)
  {
    var updated := UpdateDictionary(bot);
    assert guess in updated.wordList;
    if Winnable(validWords, answer, player, attemptLimit) {
      OnTrackGuessable(validWords, answer, player, attemptLimit, bot, k);
      MissKeepsAnswer(updated, answer, guess);
    }
  }

  /**
   Hard mode: a word agrees with the marks a guess received when it has every
   green letter in place, every yellow letter somewhere but not in place, and
   no black letter at all.
   */
  predicate Agrees(w: Word, guess: Word, marks: seq<Mark>)
    requires |guess| <= |w| && |guess| <= |marks|
  {
    forall i :: 0 <= i < |guess| ==>
      && (marks[i] == G ==> w[i] == guess[i])
      && (marks[i] == Y ==> w[i] != guess[i] && guess[i] in w)
      && (marks[i] == B ==> guess[i] !in w)
  }

  /**
   After a guess is scored and fed back, every candidate the next update keeps
   agrees with the guess's marks.
   */
  lemma MissAgrees(bot: Bot, answer: Word, guess: Word)
    requires Valid(bot)
    requires |guess| == |bot.letterCounts| <= |answer|
    ensures forall w :: w in UpdateDictionary(AfterMiss(answer, bot, guess)).dictionary ==>
      |w| == |guess| && Agrees(w, guess, ScoreGuess(answer, guess))
  {
    var marks := ScoreGuess(answer, guess);
    var n := |guess|;
    var u := UpdateDictionary(bot);
    var r := FeedbackResult(u, guess, marks);
    assert r == AfterMiss(answer, bot, guess);
    assert r == FeedbackUpTo(u, guess, marks, n);
    FeedbackGreenOnly(u, guess, marks, n);
    FeedbackClearsBlack(u, guess, marks, n);
    forall w | w in UpdateDictionary(r).dictionary
      ensures |w| == n && Agrees(w, guess, marks)
    {
      assert Consistent(w, r.letterCounts, r.known);
      forall i | 0 <= i < n
        ensures marks[i] == G ==> w[i] == guess[i]
        ensures marks[i] == Y ==> w[i] != guess[i] && guess[i] in w
        ensures marks[i] == B ==> guess[i] !in w
      {
        assert Has(r.letterCounts[i], w[i]);
        if marks[i] == Y {
          assert guess[i] in r.known;
        }
        if marks[i] == B {
          forall p | 0 <= p < n
            ensures w[p] != guess[i]
          {
            assert Has(r.letterCounts[p], w[p]);
            assert !(marks[p] == G && guess[p] == guess[i]);
          }
        }
      }
    }
  }

  /** The attempts left after one more attempt is spent. */
  function Fewer(attempts: nat): (left: nat)
    requires attempts > 0
    ensures left < attempts
  {
    attempts - 1
  }

  /**
   The guesses the modal-letter bot makes from state `bot` against `answer` in
   at most `limit` attempts: each is the bot's guess after its update; a wrong
   guess is scored and fed back, the answer ends the sequence, and a bot left
   without candidates guesses nothing more. Every guess is a candidate of the
   bot's updated state, and only the last can be the answer.
   */
  function Guesses(answer: Word, bot: Bot, limit: nat): (gs: seq<Word>)
    requires Valid(bot) && |bot.letterCounts| <= |answer|
    ensures |gs| <= limit
    ensures |gs| > 0 ==> ModalGuess(bot).Success? && gs[0] == ModalGuess(bot).value
    decreases limit
  {
    if limit == 0 then []
    else
      match ModalGuess(bot)
      case Failure(_) => []
      case Success(g) =>
        if g == answer then [g]
        else [g] + Guesses(answer, AfterMiss(answer, bot, g), Fewer(limit))
  }

  /**
   The bot's guesses are candidates of its updated state, only the last can be
   the answer, and they are in hard mode.
   */
  lemma {:induction false} GuessesSound(answer: Word, bot: Bot, limit: nat)
    requires Valid(bot) && |bot.letterCounts| <= |answer|
    ensures var gs := Guesses(answer, bot, limit);
      && (forall i :: 0 <= i < |gs| ==> gs[i] in UpdateDictionary(bot).dictionary && |gs[i]| == |bot.letterCounts|)
      && (forall i :: 0 <= i < |gs| - 1 ==> gs[i] != answer)
      && HardMode(answer, gs)
    decreases limit
  {
    if limit > 0 && ModalGuess(bot).Success? && ModalGuess(bot).value == answer {
      GuessesWin(answer, bot, limit);
    } else if limit > 0 && ModalGuess(bot).Success? {
      var g := ModalGuess(bot).value;
      var next := AfterMiss(answer, bot, g);
      GuessesMiss(answer, bot, limit);
      GuessesSound(answer, next, Fewer(limit));
      MissStep(answer, bot, g, Guesses(answer, next, Fewer(limit)));
    }
  }

  /** A wrong guess of the bot followed by guesses of the bot after the miss. */
  lemma MissStep(answer: Word, bot: Bot, g: Word, rest: seq<Word>)
    requires Valid(bot) && |g| == |bot.letterCounts| <= |answer|
    requires g in UpdateDictionary(bot).dictionary && g != answer
    requires forall k :: 0 <= k < |rest| ==>
      rest[k] in UpdateDictionary(AfterMiss(answer, bot, g)).dictionary && |rest[k]| == |g|
    requires forall k :: 0 <= k < |rest| - 1 ==> rest[k] != answer
    requires HardMode(answer, rest)
    ensures forall i :: 0 <= i < |[g] + rest| ==>
      ([g] + rest)[i] in UpdateDictionary(bot).dictionary && |([g] + rest)[i]| == |g|
    ensures forall i :: 0 <= i < |[g] + rest| - 1 ==> ([g] + rest)[i] != answer
    ensures HardMode(answer, [g] + rest)
  {
    var survivors := UpdateDictionary(AfterMiss(answer, bot, g)).dictionary;
    GuessesCons(answer, g, rest, UpdateDictionary(bot).dictionary, survivors, |g|);
    MissAgrees(bot, answer, g);
    HardModeMiss(answer, g, rest, survivors);
  }

  /** A wrong guess from `d` followed by guesses from a part of `d`. */
  lemma GuessesCons(answer: Word, g: Word, rest: seq<Word>, d: seq<Word>, d': seq<Word>, n: nat)
    requires g in d && |g| == n && g != answer
    requires forall w :: w in d' ==> w in d
    requires forall k :: 0 <= k < |rest| ==> rest[k] in d' && |rest[k]| == n
    requires forall k :: 0 <= k < |rest| - 1 ==> rest[k] != answer
    ensures forall i :: 0 <= i < |[g] + rest| ==> ([g] + rest)[i] in d && |([g] + rest)[i]| == n
    ensures forall i :: 0 <= i < |[g] + rest| - 1 ==> ([g] + rest)[i] != answer
  {
  }

  /** The bot after a wrong guess `g`: updated, then fed the guess's marks. */
  function AfterMiss(answer: Word, bot: Bot, g: Word): (r: Bot)
    requires Valid(bot) && |g| == |bot.letterCounts| <= |answer|
    ensures Valid(r) && r.wordList == bot.wordList && |r.letterCounts| == |bot.letterCounts|
    ensures r.dictionary == UpdateDictionary(bot).dictionary
  {
    FeedbackResult(UpdateDictionary(bot), g, ScoreGuess(answer, g))
  }

  /**
   Hard mode over a sequence of guesses, guess by guess: every later guess
   agrees with the marks of the first, and the rest are in hard mode too.
   */
  predicate HardMode(answer: Word, gs: seq<Word>)
    decreases |gs|
  {
    || |gs| == 0
    || (&& (forall k :: 1 <= k < |gs| && |gs[0]| <= |answer| && |gs[0]| <= |gs[k]| ==>
             Agrees(gs[k], gs[0], ScoreGuess(answer, gs[0])))
        && HardMode(answer, gs[1..]))
  }

  /** Hard mode pair by pair: each guess agrees with the marks of every earlier one. */
  lemma {:induction false} HardModePairs(answer: Word, gs: seq<Word>)
    requires HardMode(answer, gs)
    ensures forall i, j :: 0 <= i < j < |gs| && |gs[i]| <= |answer| && |gs[i]| <= |gs[j]| ==>
      Agrees(gs[j], gs[i], ScoreGuess(answer, gs[i]))
    decreases |gs|
  {
    if |gs| > 0 {
      HardModePairs(answer, gs[1..]);
      forall i, j | 0 <= i < j < |gs| && |gs[i]| <= |answer| && |gs[i]| <= |gs[j]|
        ensures Agrees(gs[j], gs[i], ScoreGuess(answer, gs[i]))
      {
        if i > 0 {
          assert gs[i] == gs[1..][i - 1] && gs[j] == gs[1..][j - 1];
        }
      }
    }
  }

  /** A guess followed by hard-mode guesses drawn from words that agree with its marks. */
  lemma HardModeMiss(answer: Word, g: Word, rest: seq<Word>, survivors: seq<Word>)
    requires |g| <= |answer|
    requires HardMode(answer, rest)
    requires forall k :: 0 <= k < |rest| ==> rest[k] in survivors
    requires forall w :: w in survivors ==> |w| == |g| && Agrees(w, g, ScoreGuess(answer, g))
    ensures HardMode(answer, [g] + rest)
  {
    var gs := [g] + rest;
    assert gs[1..] == rest;
    forall k | 1 <= k < |gs|
      ensures |g| <= |gs[k]| && Agrees(gs[k], g, ScoreGuess(answer, g))
    {
      assert gs[k] == rest[k - 1] && rest[k - 1] in survivors;
    }
  }

  /** Against an answer of the bot's length the guesses never repeat. */
  lemma GuessesDistinct(answer: Word, bot: Bot, limit: nat)
    requires Valid(bot) && |bot.letterCounts| == |answer|
    ensures Distinct(Guesses(answer, bot, limit))
  {
    var gs := Guesses(answer, bot, limit);
    GuessesSound(answer, bot, limit);
    HardModePairs(answer, gs);
    forall i, j | 0 <= i < j < |gs|
      ensures gs[i] != gs[j]
    {
      NotAgreeSelf(answer, gs[i]);
    }
  }

  /** A wrong guess of the answer's length does not agree with its own marks. */
  lemma NotAgreeSelf(answer: Word, g: Word)
    requires |g| == |answer| && g != answer
    ensures !Agrees(g, g, ScoreGuess(answer, g))
  {
    var k :| 0 <= k < |answer| && g[k] != answer[k];
    assert ScoreGuess(answer, g)[k] != G;
  }

  /**
   One attempt: the bot guesses, the game master rejects a guess it does not
   know, scores it, and feeds the marks back unless the guess is the answer.
   */
  method Attempt(validWords: set<Word>, answer: Word, player: Bot, attemptLimit: int, bot: Bot, guesses: seq<Word>, stats: seq<seq<Mark>>)
    returns (failed: Result<Session>, bot': Bot, guesses': seq<Word>, stats': seq<seq<Mark>>, won: bool)
    requires |player.letterCounts| <= |answer|
    requires Record(validWords, answer, |player.letterCounts|, guesses, stats, false)
    requires OnTrack(validWords, answer, player, attemptLimit, bot, |guesses|, false)
    ensures Valid(bot') && bot'.wordList == player.wordList && |bot'.letterCounts| == |player.letterCounts|
    ensures failed.Failure? && failed.error.InvalidGuess? ==> failed.error.guess !in validWords
    ensures failed.Failure? ==> !Winnable(validWords, answer, player, attemptLimit)
    ensures failed.Success? ==> Record(validWords, answer, |player.letterCounts|, guesses', stats', won)
    ensures failed.Success? ==> OnTrack(validWords, answer, player, attemptLimit, bot', |guesses'|, won)
    ensures failed.Success? ==> |guesses'| == |guesses| + 1
    ensures failed.Success? && won ==> bot' == UpdateDictionary(bot)
    ensures failed.Success? && !won ==>
      && |guesses'[|guesses|]| == |bot.letterCounts|
      && bot' == FeedbackResult(UpdateDictionary(bot), guesses'[|guesses|], stats'[|guesses|])
    ensures failed.Success? ==> ModalGuess(bot).Success? && guesses' == guesses + [ModalGuess(bot).value]
    ensures failed.Success? ==> (won <==> ModalGuess(bot).value == answer)
    ensures failed.Success? && !won ==> bot' == AfterMiss(answer, bot, ModalGuess(bot).value)
    ensures failed.Failure? ==>
      || (ModalGuess(bot).Failure? && failed.error == NoCandidates)
      || (ModalGuess(bot).Success? && failed.error == InvalidGuess(ModalGuess(bot).value))
  {
    var g;
    g, bot' := Guess(bot);
    guesses', stats', won := guesses, stats, false;
    if Winnable(validWords, answer, player, attemptLimit) {
      OnTrackGuessable(validWords, answer, player, attemptLimit, bot, |guesses|);
    }
    if g.Failure? {
      return Failure(g.error), bot', guesses', stats', won;
    }
    var guess := g.value;
    if guess !in validWords {
      return Failure(InvalidGuess(guess)), bot', guesses', stats', won;
    }
    assert guess in bot'.wordList;
    var results := ScoreGuess(answer, guess);
    RecordExtend(validWords, answer, |player.letterCounts|, guesses, stats, guess);
    stats' := stats + [results];
    guesses' := guesses + [guess];
    failed := Success(Session(0, [], []));
    if guess == answer {
      won := true;
      OnTrackWin(validWords, answer, player, attemptLimit, bot, |guesses|);
    } else {
      OnTrackMiss(validWords, answer, player, attemptLimit, bot, |guesses|, guess);
      bot' := FeedbackResult(bot', guess, results);
    }
  }

  /**
   What a bot still guesses against the answer with `left` attempts to go:
   nothing once the round is won, nor for a bot that cannot play the answer.
   */
  function Ahead(answer: Word, bot: Bot, left: nat, won: bool): seq<Word>
  {
    if won || !Valid(bot) || |bot.letterCounts| > |answer| then [] else Guesses(answer, bot, left)
  }

  /**
   The guesses of a round so far are the start of the player's guess sequence
   within `limit` attempts, with `left` attempts to go: all of it once won,
   otherwise followed by what the current bot goes on to guess.
   */
  predicate Follows(answer: Word, player: Bot, limit: nat, bot: Bot, guesses: seq<Word>, left: nat, won: bool)
  {
    && |guesses| + left == limit
    && Ahead(answer, player, limit, false) == guesses + Ahead(answer, bot, left, won)
  }

  /** Before the first attempt the round is the whole of the bot's guess sequence to come. */
  lemma FollowsStart(answer: Word, player: Bot, limit: nat)
    ensures Follows(answer, player, limit, player, [], limit, false)
  {
    assert [] + Ahead(answer, player, limit, false) == Ahead(answer, player, limit, false);
  }

  /** A round that is won or out of attempts has made exactly the bot's guesses. */
  lemma FollowsDone(answer: Word, player: Bot, limit: nat, bot: Bot, guesses: seq<Word>, left: nat, won: bool)
    requires Valid(player) && |player.letterCounts| <= |answer|
    requires Follows(answer, player, limit, bot, guesses, left, won)
    requires won || left == 0
    ensures Guesses(answer, player, limit) == guesses
  {
    if !won && Valid(bot) && |bot.letterCounts| <= |answer| {
      assert Guesses(answer, bot, 0) == [];
    }
    AppendNil(guesses);
  }

  /** A bot whose guess is the answer guesses nothing more. */
  lemma GuessesWin(answer: Word, bot: Bot, left: nat)
    requires Valid(bot) && |bot.letterCounts| <= |answer| && left > 0
    requires ModalGuess(bot).Success? && ModalGuess(bot).value == answer
    ensures Guesses(answer, bot, left) == [answer]
  {
  }

  /** After a wrong guess the bot goes on from its state after the miss. */
  lemma GuessesMiss(answer: Word, bot: Bot, left: nat)
    requires Valid(bot) && |bot.letterCounts| <= |answer| && left > 0
    requires ModalGuess(bot).Success? && ModalGuess(bot).value != answer
    ensures Guesses(answer, bot, left) ==
      [ModalGuess(bot).value] + Guesses(answer, AfterMiss(answer, bot, ModalGuess(bot).value), Fewer(left))
  {
  }

  /** A correct guess completes the bot's guess sequence, whatever the bot is left as. */
  lemma FollowsWin(answer: Word, player: Bot, limit: nat, bot: Bot, guesses: seq<Word>, left: nat, bot': Bot)
    ensures
      (&& Follows(answer, player, limit, bot, guesses, left, false)
       && left > 0 && Valid(bot) && |bot.letterCounts| <= |answer|
       && ModalGuess(bot).Success? && ModalGuess(bot).value == answer)
      ==> Follows(answer, player, limit, bot', guesses + [answer], Fewer(left), true)
  {
    if && Follows(answer, player, limit, bot, guesses, left, false)
       && left > 0 && Valid(bot) && |bot.letterCounts| <= |answer|
       && ModalGuess(bot).Success? && ModalGuess(bot).value == answer
    {
      GuessesWin(answer, bot, left);
      assert Ahead(answer, bot, left, false) == [answer];
      assert Ahead(answer, bot', Fewer(left), true) == [];
      AppendNil(guesses + [answer]);
    }
  }

  /** A wrong guess keeps the round on the bot's guess sequence. */
  lemma FollowsMiss(answer: Word, player: Bot, limit: nat, bot: Bot, guesses: seq<Word>, left: nat)
    ensures
      (&& Follows(answer, player, limit, bot, guesses, left, false)
       && left > 0 && Valid(bot) && |bot.letterCounts| <= |answer|
       && ModalGuess(bot).Success? && ModalGuess(bot).value != answer)
      ==> Follows(answer, player, limit, AfterMiss(answer, bot, ModalGuess(bot).value), guesses + [ModalGuess(bot).value], Fewer(left), false)
  {
    if && Follows(answer, player, limit, bot, guesses, left, false)
       && left > 0 && Valid(bot) && |bot.letterCounts| <= |answer|
       && ModalGuess(bot).Success? && ModalGuess(bot).value != answer
    {
      var g := ModalGuess(bot).value;
      var next := AfterMiss(answer, bot, g);
      GuessesMiss(answer, bot, left);
      assert Ahead(answer, bot, left, false) == Guesses(answer, bot, left);
      assert Ahead(answer, next, Fewer(left), false) == Guesses(answer, next, Fewer(left));
      AppendAssoc(guesses, [g], Ahead(answer, next, Fewer(left), false));
    }
  }

  /** An attempt that guessed and did not fail keeps the round on the bot's guess sequence. */
  lemma FollowsAttempt(answer: Word, player: Bot, limit: nat, bot: Bot, guesses: seq<Word>, left: nat, bot': Bot, guesses': seq<Word>, won: bool)
    ensures
      (&& Follows(answer, player, limit, bot, guesses, left, false)
       && left > 0 && Valid(bot) && |bot.letterCounts| <= |answer|
       && ModalGuess(bot).Success?
       && guesses' == guesses + [ModalGuess(bot).value]
       && (won <==> ModalGuess(bot).value == answer)
       && (!won ==> bot' == AfterMiss(answer, bot, ModalGuess(bot).value)))
      ==> Follows(answer, player, limit, bot', guesses', Fewer(left), won)
  {
    FollowsWin(answer, player, limit, bot, guesses, left, bot');
    FollowsMiss(answer, player, limit, bot, guesses, left);
  }

  /**
   A guess sequence `play` plays to the end within `limit` attempts: the game
   master accepts every guess, and the sequence ends with the answer or uses
   every attempt. Otherwise the bot ran out of candidates, or a guess was
   rejected.
   */
  predicate Completes(validWords: set<Word>, answer: Word, gs: seq<Word>, limit: nat)
  {
    && (forall i :: 0 <= i < |gs| ==> gs[i] in validWords)
    && (|gs| == limit || (|gs| > 0 && gs[|gs| - 1] == answer))
  }

  /**
   A round that reaches a bot without candidates, or a guess the game master
   rejects, before the answer and with attempts left does not complete the
   bot's guess sequence.
   */
  lemma StuckIncomplete(validWords: set<Word>, answer: Word, player: Bot, limit: nat, bot: Bot, guesses: seq<Word>, left: nat)
    requires Valid(player) && |player.letterCounts| <= |answer|
    requires Valid(bot) && |bot.letterCounts| <= |answer|
    requires Follows(answer, player, limit, bot, guesses, left, false) && left > 0
    requires |guesses| > 0 ==> guesses[|guesses| - 1] != answer
    requires ModalGuess(bot).Success? ==> ModalGuess(bot).value !in validWords
    ensures !Completes(validWords, answer, Guesses(answer, player, limit), limit)
  {
    var gs, rest := Guesses(answer, player, limit), Guesses(answer, bot, left);
    FollowsSplit(answer, player, limit, bot, guesses, left);
    NextGuess(answer, bot, left);
    IncompleteSeq(validWords, answer, gs, guesses, rest, limit, left);
  }

  /** Before the round is won, the player's guesses are those made so far followed by the current bot's. */
  lemma FollowsSplit(answer: Word, player: Bot, limit: nat, bot: Bot, guesses: seq<Word>, left: nat)
    requires Valid(player) && |player.letterCounts| <= |answer|
    requires Valid(bot) && |bot.letterCounts| <= |answer|
    requires Follows(answer, player, limit, bot, guesses, left, false)
    ensures Guesses(answer, player, limit) == guesses + Guesses(answer, bot, left)
  {
    assert Ahead(answer, bot, left, false) == Guesses(answer, bot, left);
  }

  /** With attempts left, a bot without candidates guesses nothing, and otherwise its next guess comes first. */
  lemma NextGuess(answer: Word, bot: Bot, left: nat)
    requires Valid(bot) && |bot.letterCounts| <= |answer| && left > 0
    ensures ModalGuess(bot).Failure? ==> Guesses(answer, bot, left) == []
    ensures ModalGuess(bot).Success? ==> |Guesses(answer, bot, left)| > 0 && Guesses(answer, bot, left)[0] == ModalGuess(bot).value
  {
  }

  /**
   Guesses made so far, not ending in the answer, followed by none or by a
   rejected guess, before the attempts run out, do not complete.
   */
  lemma IncompleteSeq(validWords: set<Word>, answer: Word, gs: seq<Word>, guesses: seq<Word>, rest: seq<Word>, limit: nat, left: nat)
    requires gs == guesses + rest && |guesses| + left == limit && left > 0
    requires |guesses| > 0 ==> guesses[|guesses| - 1] != answer
    requires rest == [] || rest[0] !in validWords
    ensures !Completes(validWords, answer, gs, limit)
  {
    if rest == [] {
      AppendNil(guesses);
    } else {
      AppendIndex(guesses, rest, |guesses|, 0);
    }
  }

  /** A round won or out of attempts, with every guess accepted, completes. */
  lemma DoneCompletes(validWords: set<Word>, answer: Word, n: nat, guesses: seq<Word>, stats: seq<seq<Mark>>, won: bool, limit: nat)
    requires n <= |answer|
    requires Record(validWords, answer, n, guesses, stats, won)
    requires won || |guesses| == limit
    ensures Completes(validWords, answer, guesses, limit)
  {
  }

  /**
   The record of a finished round read as the session `play` returns: its
   guesses are known words scored against the answer, only the last is the
   answer, it is the answer whenever attempts were left, and on a winnable
   round there are no more guesses than candidates.
   */
  lemma RoundSession(validWords: set<Word>, answer: Word, player: Bot, attemptLimit: int, bot: Bot, guesses: seq<Word>, stats: seq<seq<Mark>>, won: bool)
    requires |player.letterCounts| <= |answer|
    requires Record(validWords, answer, |player.letterCounts|, guesses, stats, won)
    requires OnTrack(validWords, answer, player, attemptLimit, bot, |guesses|, won)
    requires |guesses| <= Attempts(attemptLimit) && (won || |guesses| == Attempts(attemptLimit))
    requires |guesses| > 0
    ensures 1 <= |guesses| <= attemptLimit - 1 && |stats| == |guesses|
    ensures forall i :: 0 <= i < |guesses| ==> guesses[i] in validWords && |guesses[i]| == |player.letterCounts| && stats[i] == ScoreGuess(answer, guesses[i])
    ensures forall i :: 0 <= i < |guesses| - 1 ==> guesses[i] != answer
    ensures |guesses| < attemptLimit - 1 ==> guesses[|guesses| - 1] == answer
    ensures Winnable(validWords, answer, player, attemptLimit) ==>
      guesses[|guesses| - 1] == answer && |guesses| <= |player.dictionary|
  { }


  /** The number of attempts `play` makes at most: one fewer than the limit. */
  function Attempts(attemptLimit: int): (n: nat)
    ensures attemptLimit >= 1 ==> n + 1 == attemptLimit
    ensures attemptLimit < 1 ==> n == 0
  {
    if attemptLimit >= 1 then attemptLimit - 1 else 0
  }

  /**
   One pass of the loop of `play`: an attempt that, when it does not fail,
   keeps the round on the bot's guess sequence with one attempt fewer to go.
   */
  method Turn(validWords: set<Word>, answer: Word, player: Bot, attemptLimit: int, bot: Bot, guesses: seq<Word>, stats: seq<seq<Mark>>, ghost limit: nat, ghost left: nat)
    returns (failed: Result<Session>, bot': Bot, guesses': seq<Word>, stats': seq<seq<Mark>>, won: bool)
    requires Valid(player)
    requires |player.letterCounts| <= |answer| && |guesses| < attemptLimit - 1 == limit
    requires Record(validWords, answer, |player.letterCounts|, guesses, stats, false)
    requires OnTrack(validWords, answer, player, attemptLimit, bot, |guesses|, false)
    requires Follows(answer, player, limit, bot, guesses, left, false)
    ensures Valid(bot') && bot'.wordList == player.wordList && |bot'.letterCounts| == |player.letterCounts|
    ensures failed.Failure? && failed.error.InvalidGuess? ==> failed.error.guess !in validWords
    ensures failed.Failure? ==> !Winnable(validWords, answer, player, attemptLimit)
    ensures failed.Success? ==> Record(validWords, answer, |player.letterCounts|, guesses', stats', won)
    ensures failed.Success? ==> OnTrack(validWords, answer, player, attemptLimit, bot', |guesses'|, won)
    ensures failed.Success? ==> |guesses'| == |guesses| + 1
    ensures failed.Success? ==> Follows(answer, player, limit, bot', guesses', Fewer(left), won)
    ensures failed.Failure? ==> failed.error == NoCandidates || failed.error.InvalidGuess?
    ensures failed.Failure? ==> !Completes(validWords, answer, Guesses(answer, player, limit), limit)
  {
    failed, bot', guesses', stats', won := Attempt(validWords, answer, player, attemptLimit, bot, guesses, stats);
    if failed.Failure? {
      StuckIncomplete(validWords, answer, player, limit, bot, guesses, left);
    }
    FollowsAttempt(answer, player, limit, bot, guesses, left, bot', guesses', won);
  }

  /**
   The loop of `play`: attempts until the answer is guessed or the attempts run
   out, stopping at the first attempt that fails. A loop that does not fail
   has made exactly the bot's guess sequence within the attempts allowed.
   */
  method Guessing(validWords: set<Word>, answer: Word, player: Bot, attemptLimit: int)
    returns (failed: Result<Session>, bot: Bot, guesses: seq<Word>, stats: seq<seq<Mark>>, won: bool)
    requires Valid(player)
    requires |player.letterCounts| <= |answer|
    ensures Valid(bot) && bot.wordList == player.wordList && |bot.letterCounts| == |player.letterCounts|
    ensures failed.Failure? && failed.error.InvalidGuess? ==> failed.error.guess !in validWords
    ensures failed.Failure? ==> attemptLimit > 1 && !Winnable(validWords, answer, player, attemptLimit)
    ensures failed.Success? ==> Record(validWords, answer, |player.letterCounts|, guesses, stats, won)
    ensures failed.Success? ==> OnTrack(validWords, answer, player, attemptLimit, bot, |guesses|, won)
    ensures failed.Success? ==> |guesses| <= Attempts(attemptLimit) && (won || |guesses| == Attempts(attemptLimit))
    ensures failed.Success? ==> guesses == Guesses(answer, player, Attempts(attemptLimit))
    ensures failed.Failure? ==> failed.error == NoCandidates || failed.error.InvalidGuess?
    ensures failed.Success? <==> Completes(validWords, answer, Guesses(answer, player, Attempts(attemptLimit)), Attempts(attemptLimit))
  {
    bot := player;
    guesses, stats, won := [], [], false;
    failed := Success(Session(0, [], []));
    ghost var limit := Attempts(attemptLimit);
    ghost var left := limit;
    FollowsStart(answer, player, limit);
    while |guesses| < attemptLimit - 1 && !won
      invariant Record(validWords, answer, |player.letterCounts|, guesses, stats, won)
      invariant OnTrack(validWords, answer, player, attemptLimit, bot, |guesses|, won)
      invariant failed.Success? && |guesses| <= limit
      invariant Follows(answer, player, limit, bot, guesses, left, won)
      decreases attemptLimit - |guesses|
    {
      failed, bot, guesses, stats, won := Turn(validWords, answer, player, attemptLimit, bot, guesses, stats, limit, left);
      if failed.Failure? {
        return;
      }
      left := Fewer(left);
    }
    FollowsDone(answer, player, limit, bot, guesses, left, won);
    DoneCompletes(validWords, answer, |player.letterCounts|, guesses, stats, won, limit);
  }

  /**
   The end of `play` once its loop is over, given what the loop did and the
   bot's guess sequence `gs`: an error of the loop is passed on; otherwise the
   bot is reset, which fails for a bot of another width, and the number of
   guesses is the score, unbound when no guess was made.
   */
  method Conclude(validWords: set<Word>, answer: Word, player: Bot, attemptLimit: int, failed: Result<Session>, bot: Bot, guesses: seq<Word>, stats: seq<seq<Mark>>, won: bool, ghost gs: seq<Word>)
    returns (r: Result<Session>, bot': Bot)
    requires Valid(player)
    requires |player.letterCounts| <= |answer|
    requires Valid(bot) && bot.wordList == player.wordList && |bot.letterCounts| == |player.letterCounts|
    requires failed.Failure? && failed.error.InvalidGuess? ==> failed.error.guess !in validWords
    requires failed.Failure? ==> attemptLimit > 1 && !Winnable(validWords, answer, player, attemptLimit)
    requires failed.Success? ==> Record(validWords, answer, |player.letterCounts|, guesses, stats, won)
    requires failed.Success? ==> OnTrack(validWords, answer, player, attemptLimit, bot, |guesses|, won)
    requires failed.Success? ==> |guesses| <= Attempts(attemptLimit) && (won || |guesses| == Attempts(attemptLimit))
    requires failed.Success? ==> guesses == gs
    requires failed.Failure? ==> failed.error == NoCandidates || failed.error.InvalidGuess?
    requires failed.Success? <==> Completes(validWords, answer, gs, Attempts(attemptLimit))
    ensures Valid(bot') && bot'.wordList == player.wordList && |bot'.letterCounts| == |player.letterCounts|
    ensures attemptLimit <= 1 ==> r == Failure(if |player.letterCounts| == 5 then NoAttempts else ColumnMismatch)
    ensures r.Failure? && r.error.InvalidGuess? ==> r.error.guess !in validWords
    ensures r.Success? ==> |player.letterCounts| == 5 && bot' == Fresh(player.wordList, 5)
    ensures r.Success? ==> 1 <= r.value.score <= attemptLimit - 1
    ensures r.Success? ==> |r.value.guesses| == |r.value.results| == r.value.score
    ensures r.Success? ==> forall i :: 0 <= i < r.value.score ==> r.value.guesses[i] in validWords && |r.value.guesses[i]| == |player.letterCounts| && r.value.results[i] == ScoreGuess(answer, r.value.guesses[i])
    ensures r.Success? ==> forall i :: 0 <= i < r.value.score - 1 ==> r.value.guesses[i] != answer
    ensures r.Success? && r.value.score < attemptLimit - 1 ==> r.value.guesses[r.value.score - 1] == answer
    ensures Winnable(validWords, answer, player, attemptLimit) ==>
      r.Success? && r.value.guesses[r.value.score - 1] == answer && r.value.score <= |player.dictionary|
    ensures r.Success? ==> r.value.guesses == gs
    ensures r.Success? <==>
      attemptLimit > 1 && |player.letterCounts| == 5 &&
      Completes(validWords, answer, gs, Attempts(attemptLimit))
    ensures r.Failure? && attemptLimit > 1 && |player.letterCounts| == 5 ==> r.error == NoCandidates || r.error.InvalidGuess?
    ensures r.Failure? ==> r.error == NoCandidates || r.error.InvalidGuess? || r.error == ColumnMismatch || r.error == NoAttempts
    ensures r.Failure? && r.error == ColumnMismatch ==> |player.letterCounts| != 5
    ensures r.Failure? && r.error == NoAttempts ==> attemptLimit <= 1
  {
    bot' := bot;
    if failed.Failure? {
      return failed, bot';
    }
    var reset := Reset(bot);
    if reset.Failure? {
      return Failure(reset.error), bot';
    }
    bot' := reset.value;
    if |guesses| == 0 {
      return Failure(NoAttempts), bot';
    }
    RoundSession(validWords, answer, player, attemptLimit, bot, guesses, stats, won);
    r := Success(Session(|guesses|, stats, guesses));
  }

  /**
   `play`: at most `attemptLimit - 1` attempts, stopping at the first correct
   guess; the score is the number of guesses, the bot is reset for the next
   round. A limit of one or less leaves the score unbound, an unknown guess is
   rejected before it is scored, and a winnable round is won within as many
   guesses as there were candidates. The guesses made are exactly the bot's
   guess sequence against the answer (`Guesses`), and the round ends with a
   score exactly when that sequence `Completes`.
   */
  method Play(validWords: set<Word>, answer: Word, player: Bot, attemptLimit: int) returns (r: Result<Session>, bot: Bot)
    requires Valid(player)
    requires |player.letterCounts| <= |answer|
    ensures Valid(bot) && bot.wordList == player.wordList && |bot.letterCounts| == |player.letterCounts|
    ensures attemptLimit <= 1 ==> r == Failure(if |player.letterCounts| == 5 then NoAttempts else ColumnMismatch)
    ensures r.Failure? && r.error.InvalidGuess? ==> r.error.guess !in validWords
    ensures r.Success? ==> |player.letterCounts| == 5 && bot == Fresh(player.wordList, 5)
    ensures r.Success? ==> 1 <= r.value.score <= attemptLimit - 1
    ensures r.Success? ==> |r.value.guesses| == |r.value.results| == r.value.score
    ensures r.Success? ==> forall i :: 0 <= i < r.value.score ==> r.value.guesses[i] in validWords && |r.value.guesses[i]| == |player.letterCounts| && r.value.results[i] == ScoreGuess(answer, r.value.guesses[i])
    ensures r.Success? ==> forall i :: 0 <= i < r.value.score - 1 ==> r.value.guesses[i] != answer
    ensures r.Success? && r.value.score < attemptLimit - 1 ==> r.value.guesses[r.value.score - 1] == answer
    ensures Winnable(validWords, answer, player, attemptLimit) ==>
      r.Success? && r.value.guesses[r.value.score - 1] == answer && r.value.score <= |player.dictionary|
    ensures r.Success? ==> r.value.guesses == Guesses(answer, player, Attempts(attemptLimit))
    ensures r.Success? <==>
      attemptLimit > 1 && |player.letterCounts| == 5 &&
      Completes(validWords, answer, Guesses(answer, player, Attempts(attemptLimit)), Attempts(attemptLimit))
    ensures r.Failure? && attemptLimit > 1 && |player.letterCounts| == 5 ==> r.error == NoCandidates || r.error.InvalidGuess?
    ensures r.Failure? ==> r.error == NoCandidates || r.error.InvalidGuess? || r.error == ColumnMismatch || r.error == NoAttempts
    ensures r.Failure? && r.error == ColumnMismatch ==> |player.letterCounts| != 5
    ensures r.Failure? && r.error == NoAttempts ==> attemptLimit <= 1
  {
    var failed, guesses, stats, won;
    failed, bot, guesses, stats, won := Guessing(validWords, answer, player, attemptLimit);
    r, bot := Conclude(validWords, answer, player, attemptLimit, failed, bot, guesses, stats, won, Guesses(answer, player, Attempts(attemptLimit)));
  }


  /**
   A fresh bot whose words are all accepted by the game master, fewer than the
   attempt limit, and include every answer.
   */
  predicate Assured(validWords: set<Word>, player: Bot, answers: seq<Word>)
  {
    && Valid(player) && |player.letterCounts| == 5
    && player == Fresh(player.wordList, 5)
    && |player.wordList| < MaxAttempts
    && (forall a :: a in answers ==> a in player.wordList)
    && (forall w :: w in player.wordList ==> w in validWords)
  }

  /** Every round a fresh bot plays for one of its own words is winnable. */
  lemma FreshWinnable(validWords: set<Word>, player: Bot, answers: seq<Word>, i: nat)
    requires Assured(validWords, player, answers)
    requires i < |answers|
    ensures Winnable(validWords, answers[i], player, MaxAttempts)
  {
    assert answers[i] in answers;
    CountsAdmitAll(player.wordList, 5);
  }

  /**
   A round `play_all` scores: the bot plays five-letter words, and `play` plays
   its guess sequence on the answer to the end at the default limit.
   */
  predicate Plays(validWords: set<Word>, answer: Word, bot: Bot)
    requires Valid(bot) && |bot.letterCounts| <= |answer|
  {
    && |bot.letterCounts| == 5
    && Completes(validWords, answer, Guesses(answer, bot, Attempts(MaxAttempts)), Attempts(MaxAttempts))
  }

  /** One round of `play_all`: play at the default limit and keep only the score. */
  method RoundScore(validWords: set<Word>, answer: Word, player: Bot) returns (r: Result<int>, bot: Bot)
    requires Valid(player)
    requires |player.letterCounts| <= |answer|
    ensures Valid(bot) && bot.wordList == player.wordList && |bot.letterCounts| == |player.letterCounts|
    ensures r.Success? ==> 1 <= r.value <= MaxAttempts - 1
    ensures r.Success? ==> |player.letterCounts| == 5 && bot == Fresh(player.wordList, 5)
    ensures Winnable(validWords, answer, player, MaxAttempts) ==> r.Success? && r.value <= |player.dictionary|
    ensures r.Success? ==> r.value == |Guesses(answer, player, Attempts(MaxAttempts))|
    ensures r.Success? <==> Plays(validWords, answer, player)
  {
    var session;
    session, bot := Play(validWords, answer, player, MaxAttempts);
    if session.Failure? {
      return Failure(session.error), bot;
    }
    r := Success(session.value.score);
  }

  /** The bot that plays round `i` of `play_all`: the player, then the bot reset after each round. */
  function RoundBot(player: Bot, i: nat): (b: Bot)
    requires Valid(player)
    ensures Valid(b) && b.wordList == player.wordList && |b.letterCounts| == |player.letterCounts|
  {
    if i == 0 then player else Fresh(player.wordList, |player.letterCounts|)
  }

  /** The score of one round: how many guesses the bot makes on the answer at the default attempt limit. */
  function Score(answer: Word, bot: Bot): nat
    requires Valid(bot) && |bot.letterCounts| <= |answer|
  {
    |Guesses(answer, bot, Attempts(MaxAttempts))|
  }

  /**
   The scores `play_all` records for the answers from index `k` on, one per
   answer in order: the number of guesses the given bot makes on answer `k`,
   then a reset bot on each later one.
   */
  function RoundScores(answers: seq<Word>, k: nat, bot: Bot): (scores: seq<int>)
    requires Valid(bot) && k <= |answers|
    requires LongEnough(answers, |bot.letterCounts|)
    ensures |scores| == |answers| - k
    decreases |answers| - k
  {
    if k == |answers| then []
    else [Score(answers[k], bot)] + RoundScores(answers, k + 1, RoundBot(bot, 1))
  }

  /**
   The score of answer `i`, at offset `j` from `k`, is the length of the guess
   sequence that the bot of that round plays on it.
   */
  lemma {:induction false} RoundScoresAt(answers: seq<Word>, k: nat, bot: Bot, i: nat, j: nat)
    requires Valid(bot)
    requires LongEnough(answers, |bot.letterCounts|)
    requires k <= i < |answers| && j == i - k
    ensures RoundScores(answers, k, bot)[j] == Score(answers[i], RoundBot(bot, j))
    decreases j
  {
    if j > 0 {
      var later, k', j' := RoundBot(bot, 1), k + 1, j - 1;
      RoundScoresAt(answers, k', later, i, j');
      RoundScoresStep(answers, k, bot, Score(answers[k], bot), k', later);
      AppendIndex([Score(answers[k], bot)], RoundScores(answers, k', later), j, j');
      assert RoundBot(later, j') == RoundBot(bot, j);
    } else {
      assert j == 0 && i == k;
    }
  }

  /** Playing answer `k` contributes its score ahead of the scores from answer `k'`, played by the reset bot. */
  lemma RoundScoresStep(answers: seq<Word>, k: nat, bot: Bot, v: int, k': nat, next: Bot)
    requires Valid(bot) && k < |answers| && k' == k + 1
    requires LongEnough(answers, |bot.letterCounts|)
    requires v == Score(answers[k], bot)
    requires next == Fresh(bot.wordList, |bot.letterCounts|)
    ensures RoundScores(answers, k, bot) == [v] + RoundScores(answers, k', next)
  {
  }

  /**
   What the rounds of `play_all` keep after `k` rounds: the scores so far
   followed by the scores of the remaining answers make up `total`, every
   score so far is within the attempt limit (and within the
   number of words when the rounds are assured), and the bot keeps the
   player's words and width (and is the player itself, a fresh bot, when the
   rounds are assured).
   */
  predicate Rounds(player: Bot, answers: seq<Word>, assured: bool, total: seq<int>, k: nat, bot: Bot, played: seq<int>)
    requires Valid(player)
    requires LongEnough(answers, |player.letterCounts|)
  {
    && k <= |answers|
    && Valid(bot) && bot.wordList == player.wordList && |bot.letterCounts| == |player.letterCounts|
    && (assured ==> bot == player)
    && InRange(played, 1, MaxAttempts - 1)
    && (assured ==> InRange(played, 1, |player.wordList|))
    && total == played + RoundScores(answers, k, bot)
  }

  /**
   Round `k` of `play_all`: play answer `k` at the default attempt limit and
   record its score; the rounds carry on from the next answer with the reset
   bot. An assured round does not fail.
   */
  method NextRound(validWords: set<Word>, player: Bot, answers: seq<Word>, ghost assured: bool, ghost total: seq<int>, k: nat, bot: Bot, played: seq<int>)
    returns (r: Result<int>, bot': Bot, played': seq<int>, k': nat)
    requires Valid(player)
    requires LongEnough(answers, |player.letterCounts|)
    requires assured ==> Assured(validWords, player, answers)
    requires k < |answers| && Rounds(player, answers, assured, total, k, bot, played)
    requires bot == RoundBot(player, k)
    ensures k' == k + 1
    ensures Valid(bot') && bot'.wordList == player.wordList && |bot'.letterCounts| == |player.letterCounts|
    ensures assured ==> r.Success?
    ensures r.Success? ==> played' == played + [r.value]
    ensures r.Success? ==> Rounds(player, answers, assured, total, k', bot', played')
    ensures r.Success? <==> Plays(validWords, answers[k], bot)
    ensures r.Success? ==> bot' == RoundBot(player, k')
  {
    var answer := answers[k];
    if assured {
      FreshWinnable(validWords, player, answers, k);
    }
    r, bot' := RoundScore(validWords, answer, bot);
    played', k' := played, k + 1;
    if r.Failure? {
      return;
    }
    RoundScoresStep(answers, k, bot, r.value, k', bot');
    SnocSplit(total, played, r.value, RoundScores(answers, k', bot'));
    InRangeSnoc(played, 1, MaxAttempts - 1, r.value);
    if assured {
      InRangeSnoc(played, 1, |player.wordList|, r.value);
    }
    played' := played + [r.value];
  }

  /**
   The rounds of `play_all`: play each answer in order at the default attempt
   limit, resetting the bot after each round, and record the scores. A failing
   round ends the run with its error. The scores are `RoundScores`, each within
   the attempt limit, and within the number of words when the rounds are
   assured.
   */
  method PlayRounds(validWords: set<Word>, player: Bot, answers: seq<Word>) returns (r: Result<seq<int>>, bot: Bot)
    requires Valid(player)
    requires LongEnough(answers, |player.letterCounts|)
    ensures |answers| == 0 ==> r == Success([])
    ensures r.Success? ==> r.value == RoundScores(answers, 0, player)
    ensures r.Success? ==> InRange(r.value, 1, MaxAttempts - 1)
    ensures Assured(validWords, player, answers) ==> r.Success? && InRange(r.value, 1, |player.wordList|)
    ensures r.Success? <==> forall i :: 0 <= i < |answers| ==> Plays(validWords, answers[i], RoundBot(player, i))
  {
    ghost var assured := Assured(validWords, player, answers);
    ghost var total := RoundScores(answers, 0, player);
    var played: seq<int> := [];
    var k := 0;
    bot := player;
    RoundsStart(player, answers, assured, total);
    while k < |answers|
      invariant Rounds(player, answers, assured, total, k, bot, played)
      invariant bot == RoundBot(player, k)
      invariant AllPlay(validWords, player, answers, k)
      decreases |answers| - k
    {
      var round;
      ghost var before := k;
      round, bot, played, k := NextRound(validWords, player, answers, assured, total, k, bot, played);
      if round.Failure? {
        PlayStops(validWords, player, answers, before);
        return Failure(round.error), bot;
      }
      PlayGoesOn(validWords, player, answers, before);
    }
    RoundsDone(player, answers, assured, total, k, bot, played);
    r := Success(played);
  }

  /** Every one of the first `k` rounds `Plays`. */
  predicate AllPlay(validWords: set<Word>, player: Bot, answers: seq<Word>, k: nat)
    requires Valid(player)
    requires LongEnough(answers, |player.letterCounts|)
    requires k <= |answers|
  {
    forall i :: 0 <= i < k ==> Plays(validWords, answers[i], RoundBot(player, i))
  }

  /** A round that `Plays` extends the rounds that do. */
  lemma PlayGoesOn(validWords: set<Word>, player: Bot, answers: seq<Word>, k: nat)
    requires Valid(player)
    requires LongEnough(answers, |player.letterCounts|)
    requires k < |answers|
    requires AllPlay(validWords, player, answers, k)
    requires Plays(validWords, answers[k], RoundBot(player, k))
    ensures AllPlay(validWords, player, answers, k + 1)
  { }

  /** A round that does not `Plays` is a witness against all rounds playing. */
  lemma PlayStops(validWords: set<Word>, player: Bot, answers: seq<Word>, k: nat)
    requires Valid(player)
    requires LongEnough(answers, |player.letterCounts|)
    requires k < |answers|
    requires !Plays(validWords, answers[k], RoundBot(player, k))
    ensures !AllPlay(validWords, player, answers, |answers|)
  { }

  /** Before the first round nothing is played and the remaining scores are all of them. */
  lemma RoundsStart(player: Bot, answers: seq<Word>, assured: bool, total: seq<int>)
    requires Valid(player)
    requires LongEnough(answers, |player.letterCounts|)
    requires total == RoundScores(answers, 0, player)
    ensures Rounds(player, answers, assured, total, 0, player, [])
  {
    assert [] + total == total;
  }

  /** After the last round the scores played are all of them. */
  lemma RoundsDone(player: Bot, answers: seq<Word>, assured: bool, total: seq<int>, k: nat, bot: Bot, played: seq<int>)
    requires Valid(player)
    requires LongEnough(answers, |player.letterCounts|)
    requires Rounds(player, answers, assured, total, k, bot, played) && k >= |answers|
    ensures played == total
  {
    AppendNil(played);
  }

  /**
   `play_all`: one round per answer at the default attempt limit, counting how
   often each score occurs. No answers leaves the mean undefined. A fresh bot
   whose words include every answer and are all accepted, with fewer words than
   the attempt limit, wins every round within as many guesses as it has words.
   */
  method PlayAll(validWords: set<Word>, player: Bot, answers: seq<Word>) returns (r: Result<Table<int>>, bot: Bot, ghost scores: seq<int>)
    requires Valid(player)
    requires LongEnough(answers, |player.letterCounts|)
    ensures |answers| == 0 ==> r == Failure(NoAnswers)
    ensures r.Success? ==> |scores| == |answers| && r.value == Tally(scores)
    ensures r.Success? ==> scores == RoundScores(answers, 0, player)
    ensures r.Success? ==> DistinctKeys(r.value) && Sum(r.value) == |answers|
    ensures r.Success? ==> forall s :: Has(r.value, s) ==> 1 <= s <= MaxAttempts - 1
    ensures r.Success? ==> forall s :: Get(r.value, s) == multiset(scores)[s]
    ensures Assured(validWords, player, answers) && |answers| > 0 ==>
      r.Success? && forall s :: Has(r.value, s) ==> s <= |player.wordList|
    ensures r.Success? <==> |answers| > 0 && forall i :: 0 <= i < |answers| ==> Plays(validWords, answers[i], RoundBot(player, i))
  {
    var rounds;
    rounds, bot := PlayRounds(validWords, player, answers);
    if rounds.Failure? {
      return Failure(rounds.error), bot, [];
    }
    var played := rounds.value;
    scores := played;
    if |played| == 0 {
      return Failure(NoAnswers), bot, scores;
    }
    var hist := Histogram(played);
    TallyInRange(played, 1, MaxAttempts - 1);
    if Assured(validWords, player, answers) {
      TallyInRange(played, 1, |player.wordList|);
    }
    r := Success(hist);
  }

  /** A tally of scores within a range has only keys within that range. */
  lemma TallyInRange(xs: seq<int>, lo: int, hi: int)
    requires InRange(xs, lo, hi)
    ensures forall s :: Has(Tally(xs), s) ==> lo <= s <= hi
  {
  }

  /** `results[score] = results.get(score, 0) + 1` for every score in turn: the tally of the scores. */
  method Histogram(scores: seq<int>) returns (hist: Table<int>)
    ensures hist == Tally(scores)
  {
    hist := [];
    var i := 0;
    while i < |scores|
      invariant 0 <= i <= |scores|
      invariant hist == Tally(scores[..i])
    {
      TallyPrefix(scores, i);
      hist := Bump(hist, scores[i]);
      i := i + 1;
    }
    assert scores[..i] == scores;
  }
}

=== FILE: modal_letter.dfy ===
/**
 The modal-letter bot: a greedy search with backtracking that repeatedly adopts
 the most frequent letter of an unresolved position, narrows the candidate view
 to the words having it there, discourages repeating that letter elsewhere, and
 retries whenever the next choice has no supporting word left in the view. The
 guess is the first word of the narrowed view.
 */
module ModalLetterBot {
  import opened CountTable
  import opened Seqs
  import opened Errors
  import opened WordleBot

  /** The selector's answer: the sentinel `("", -1, 0)`, or a letter with its position and count. */
  datatype Modal = NoLetter | Pick(letter: char, pos: nat, freq: int)

  /** A letter adopted at a position during the search. */
  datatype Choice = Choice(letter: char, pos: nat)

  /** The count of a pick; the sentinel's is 0. */
  function Freq(m: Modal): int
  {
    if m.Pick? then m.freq else 0
  }

  /**
   `__modal_letter`: among the positions whose table does not hold exactly one
   letter, the first maximal letter of the position with the greatest maximum;
   the earliest position wins a tie, and a maximum of 0 or less selects nothing.
   */
  function ModalLetter(counts: Counts): (m: Modal)
    requires forall p :: 0 <= p < |counts| ==> |counts[p]| > 0
    ensures Selects(counts, m)
    ensures m.NoLetter? <==> forall p :: 0 <= p < |counts| && |counts[p]| != 1 ==> MaxCount(counts[p]) <= 0
  {
    if |counts| == 0 then NoLetter
    else
      var p := |counts| - 1;
      var prev := ModalLetter(counts[..p]);
      var m := if |counts[p]| == 1 || MaxCount(counts[p]) <= Freq(prev) then prev
        else Pick(counts[p][MaxIndex(counts[p])].key, p, MaxCount(counts[p]));
      ModalStep(counts, prev, m);
      m
  }

  /** `m` answers the selector for `counts`: the first open position of greatest maximum, or nothing. */
  predicate Selects(counts: Counts, m: Modal)
    requires forall p :: 0 <= p < |counts| ==> |counts[p]| > 0
  {
    && (m.Pick? ==>
      && m.pos < |counts| && |counts[m.pos]| != 1 && m.freq > 0
      && m.letter == counts[m.pos][MaxIndex(counts[m.pos])].key && m.freq == MaxCount(counts[m.pos])
      && forall p :: 0 <= p < m.pos && |counts[p]| != 1 ==> MaxCount(counts[p]) < m.freq)
    && (forall p :: 0 <= p < |counts| && |counts[p]| != 1 ==> MaxCount(counts[p]) <= Freq(m))
  }

  /** One more table scanned: its maximum replaces the pick exactly when it is strictly larger. */
  lemma ModalStep(counts: Counts, prev: Modal, m: Modal)
    requires |counts| > 0 && forall p :: 0 <= p < |counts| ==> |counts[p]| > 0
    requires Selects(counts[..|counts| - 1], prev)
    requires var p := |counts| - 1;
      m == if |counts[p]| == 1 || MaxCount(counts[p]) <= Freq(prev) then prev
        else Pick(counts[p][MaxIndex(counts[p])].key, p, MaxCount(counts[p]))
    ensures Selects(counts, m)
    ensures m.NoLetter? <==> forall p :: 0 <= p < |counts| && |counts[p]| != 1 ==> MaxCount(counts[p]) <= 0
  {
    var last := |counts| - 1;
    var init := counts[..last];
    assert forall q :: 0 <= q < last ==> init[q] == counts[q];
    if m.Pick? {
      assert m.pos < |counts| && |counts[m.pos]| != 1 && MaxCount(counts[m.pos]) == m.freq;
    }
  }

  /** The pick of a dictionary table is one of its letters, stored with the picked count. */
  lemma PickIsStored(counts: Counts)
    requires forall p :: 0 <= p < |counts| ==> |counts[p]| > 0 && DistinctKeys(counts[p])
    ensures var m := ModalLetter(counts);
      m.Pick? ==> Has(counts[m.pos], m.letter) && Get(counts[m.pos], m.letter) == m.freq
  {
    var m := ModalLetter(counts);
    if m.Pick? {
      GetAt(counts[m.pos], MaxIndex(counts[m.pos]));
    }
  }

  /** Every repeat of the letter elsewhere gets count 1: still selectable, only as a last resort. */
  function CapRepeats(counts: Counts, c: char): (r: Counts)
    ensures |r| == |counts|
    ensures forall p :: 0 <= p < |counts| ==> SameOrder(r[p], counts[p]) && Keys(r[p]) == Keys(counts[p])
    ensures forall p :: 0 <= p < |counts| && Has(counts[p], c) ==> Get(r[p], c) == 1
    ensures forall p, c' :: 0 <= p < |counts| && c' != c ==> Get(r[p], c') == Get(counts[p], c')
    ensures forall p :: 0 <= p < |counts| && DistinctKeys(counts[p]) ==> DistinctKeys(r[p])
  {
    seq(|counts|, p requires 0 <= p < |counts| => if Has(counts[p], c) then Put(counts[p], c, 1) else counts[p])
  }

  /** The positions still open to the search. */
  function Unresolved(counts: Counts): set<nat>
  {
    set p: nat | p < |counts| && |counts[p]| != 1
  }

  /** The number of positive entries over all tables. */
  function Weight(counts: Counts): nat
  {
    if |counts| == 0 then 0 else PositiveEntries(counts[0]) + Weight(counts[1..])
  }

  lemma {:induction false} WeightUpdate(counts: Counts, q: nat, t: Table<char>)
    requires q < |counts|
    ensures Weight(counts[q := t]) == Weight(counts) - PositiveEntries(counts[q]) + PositiveEntries(t)
  {
    if q > 0 {
      WeightUpdate(counts[1..], q - 1, t);
      assert counts[q := t][1..] == counts[1..][q - 1 := t];
    } else {
      assert counts[q := t][1..] == counts[1..];
    }
  }

  /** The word has every adopted letter at its adopted position. */
  predicate Matches(w: Word, adopted: seq<Choice>)
  {
    forall j :: 0 <= j < |adopted| ==> adopted[j].pos < |w| && w[adopted[j].pos] == adopted[j].letter
  }

  /** The candidates, in order, that have every adopted letter. */
  function Narrowed(d: seq<Word>, adopted: seq<Choice>): seq<Word>
  {
    Filter(d, w => Matches(w, adopted))
  }

  /** `view[view[str(pos)] == c]`: the words, in order, with letter `c` at position `pos`. */
  function Narrow(view: seq<Word>, c: char, pos: nat): seq<Word>
  {
    Filter(view, w => pos < |w| && w[pos] == c)
  }

  /** Narrowing by one more choice is narrowing by the extended list of choices. */
  lemma NarrowOnce(d: seq<Word>, adopted: seq<Choice>, c: char, pos: nat)
    ensures Narrow(Narrowed(d, adopted), c, pos) == Narrowed(d, adopted + [Choice(c, pos)])
  {
    var ext := adopted + [Choice(c, pos)];
    forall w: Word
      ensures Matches(w, ext) == (Matches(w, adopted) && pos < |w| && w[pos] == c)
    {
      assert forall j :: 0 <= j < |adopted| ==> ext[j] == adopted[j];
      assert ext[|adopted|] == Choice(c, pos);
    }
    FilterTwice(d, w => Matches(w, adopted), w => pos < |w| && w[pos] == c, w => Matches(w, ext));
  }

  /** One narrowing step keeps the view a non-empty narrowing of the candidates. */
  lemma NarrowStep(d: seq<Word>, adopted: seq<Choice>, view: seq<Word>, c: char, pos: nat)
    requires view == Narrowed(d, adopted)
    requires exists w :: w in view && pos < |w| && w[pos] == c
    ensures Narrow(view, c, pos) == Narrowed(d, adopted + [Choice(c, pos)])
    ensures |Narrow(view, c, pos)| > 0
    ensures forall w :: w in Narrow(view, c, pos) ==> w in view
  {
    NarrowOnce(d, adopted, c, pos);
    var w :| w in view && pos < |w| && w[pos] == c;
    assert w in Narrow(view, c, pos);
  }

  /** A letter the counts of a view hold at a position is supported by a word of the view. */
  lemma Supported(view: seq<Word>, n: nat, c: char, pos: nat)
    requires Uniform(view, n) && pos < n
    requires Has(GetCounts(view, n)[pos], c)
    ensures exists w :: w in view && pos < |w| && w[pos] == c
  {
  }

  /**
   Adopting a pick: repeats of its letter are capped at 1 and its position is
   resolved to that letter alone, which closes the position.
   */
  function Adopt(counts: Counts, m: Modal): (r: Counts)
    requires m.Pick? && m.pos < |counts|
    requires |counts[m.pos]| != 1
    ensures |r| == |counts|
    ensures Unresolved(r) == Unresolved(counts) - {m.pos}
    ensures Keys(r[m.pos]) == {m.letter} && Get(r[m.pos], m.letter) == m.freq
    ensures forall p :: 0 <= p < |counts| && p != m.pos ==> Keys(r[p]) == Keys(counts[p])
    ensures forall p :: 0 <= p < |counts| && p != m.pos && Has(counts[p], m.letter) ==> Get(r[p], m.letter) == 1
    ensures forall p, c' :: 0 <= p < |counts| && p != m.pos && c' != m.letter ==> Get(r[p], c') == Get(counts[p], c')
    ensures forall p :: 0 <= p < |counts| && p != m.pos ==> SameOrder(r[p], counts[p])
    ensures forall p :: 0 <= p < |counts| && |counts[p]| > 0 ==> |r[p]| > 0
    ensures forall p :: 0 <= p < |counts| && DistinctKeys(counts[p]) ==> DistinctKeys(r[p])
  {
    var r := CapRepeats(counts, m.letter)[m.pos := [Entry(m.letter, m.freq)]];
    assert Unresolved(r) == Unresolved(counts) - {m.pos};
    r
  }

  /**
   What the retry keeps of the adopted tables: the same letters everywhere, and
   every count it changed is now 0 for a letter the reduced counts do not hold.
   */
  predicate RetryKeeps(counts: Counts, reduced: Counts, updated: Counts)
  {
    && |updated| == |counts| == |reduced|
    && (forall p :: 0 <= p < |counts| ==> |updated[p]| > 0 && DistinctKeys(updated[p]))
    && Unresolved(updated) == Unresolved(counts)
    && (forall p :: 0 <= p < |counts| ==> Keys(updated[p]) == Keys(counts[p]) && SameOrder(updated[p], counts[p]))
    && (forall p, c :: 0 <= p < |counts| && Get(updated[p], c) != Get(counts[p], c) ==> Get(updated[p], c) == 0 && !Has(reduced[p], c))
  }

  /** Zeroing an infeasible pick keeps what the retry promises and removes one positive entry. */
  lemma ZeroStep(counts: Counts, reduced: Counts, updated: Counts)
    requires RetryKeeps(counts, reduced, updated)
    requires ModalLetter(updated).Pick?
    requires !Has(reduced[ModalLetter(updated).pos], ModalLetter(updated).letter)
    ensures var m := ModalLetter(updated);
      && RetryKeeps(counts, reduced, updated[m.pos := Put(updated[m.pos], m.letter, 0)])
      && Weight(updated[m.pos := Put(updated[m.pos], m.letter, 0)]) < Weight(updated)
  {
    var m := ModalLetter(updated);
    PickIsStored(updated);
    ZeroEntry(counts, reduced, updated, m.pos, m.letter);
  }

  /** Zeroing a positive entry whose letter the reduced counts lack. */
  lemma ZeroEntry(counts: Counts, reduced: Counts, updated: Counts, pos: nat, c: char)
    requires RetryKeeps(counts, reduced, updated)
    requires pos < |updated| && Has(updated[pos], c) && Get(updated[pos], c) > 0
    requires !Has(reduced[pos], c)
    ensures RetryKeeps(counts, reduced, updated[pos := Put(updated[pos], c, 0)])
    ensures Weight(updated[pos := Put(updated[pos], c, 0)]) < Weight(updated)
  {
    var t := Put(updated[pos], c, 0);
    ZeroingPositive(updated[pos], c);
    WeightUpdate(updated, pos, t);
    var next := updated[pos := t];
    assert SameOrder(t, updated[pos]) && Keys(t) == Keys(updated[pos]) && DistinctKeys(t);
    forall p | 0 <= p < |counts|
      ensures |next[p]| == |updated[p]| && Keys(next[p]) == Keys(counts[p]) && SameOrder(next[p], counts[p]) && DistinctKeys(next[p])
    {
      if p != pos {
        assert next[p] == updated[p];
      }
    }
    assert Unresolved(next) == Unresolved(updated);
    forall p, x | 0 <= p < |counts| && Get(next[p], x) != Get(counts[p], x)
      ensures Get(next[p], x) == 0 && !Has(reduced[p], x)
    {
      if p != pos || x != c {
        assert Get(next[p], x) == Get(updated[p], x);
      }
    }
  }

  /** The working tables together with their pick. */
  datatype Working = Working(tables: Counts, pick: Modal)

  /**
   The feasibility retry as a recursion: while the pick of `updated` has no
   supporting word in the reduced counts, zero exactly that entry and pick
   again. The result keeps what `RetryKeeps` promises and its pick is feasible
   or the sentinel.
   */
  function RetryFrom(counts: Counts, reduced: Counts, updated: Counts): (r: Working)
    requires RetryKeeps(counts, reduced, updated)
    ensures RetryKeeps(counts, reduced, r.tables)
    ensures r.pick == ModalLetter(r.tables)
    ensures r.pick.Pick? ==> Has(reduced[r.pick.pos], r.pick.letter)
    decreases Weight(updated)
  {
    var m := ModalLetter(updated);
    if m.Pick? && !Has(reduced[m.pos], m.letter) then
      ZeroStep(counts, reduced, updated);
      RetryFrom(counts, reduced, updated[m.pos := Put(updated[m.pos], m.letter, 0)])
    else
      Working(updated, m)
  }

  /**
   The feasibility retry loop: it computes exactly `RetryFrom` started on the
   adopted tables, so only the successive infeasible picks are zeroed.
   */
  method Retry(counts: Counts, reduced: Counts) returns (updated: Counts, m: Modal)
    requires |reduced| == |counts|
    requires forall p :: 0 <= p < |counts| ==> |counts[p]| > 0 && DistinctKeys(counts[p])
    ensures Working(updated, m) == RetryFrom(counts, reduced, counts)
    ensures RetryKeeps(counts, reduced, updated)
    ensures m == ModalLetter(updated)
    ensures m.Pick? ==> Has(reduced[m.pos], m.letter)
  {
    RetryStarts(counts, reduced);
    updated := counts;
    m := ModalLetter(updated);
    while m.Pick? && !Has(reduced[m.pos], m.letter)
      invariant RetryKeeps(counts, reduced, updated)
      invariant m == ModalLetter(updated)
      invariant RetryFrom(counts, reduced, updated) == RetryFrom(counts, reduced, counts)
      decreases Weight(updated)
    {
      ZeroStep(counts, reduced, updated);
      var zeroed := updated[m.pos := Put(updated[m.pos], m.letter, 0)];
      assert RetryFrom(counts, reduced, updated) == RetryFrom(counts, reduced, zeroed);
      updated := zeroed;
      m := ModalLetter(updated);
    }
    assert RetryFrom(counts, reduced, updated) == Working(updated, m);
  }

  /**
   What the greedy narrowing carries from round to round: `n` working tables
   that are dictionaries with no empty table, their pick, and a non-empty view
   of `n`-letter words in which the pick is supported.
   */
  predicate Narrowing(n: nat, view: seq<Word>, updated: Counts, m: Modal)
  {
    && |updated| == n
    && (forall p :: 0 <= p < n ==> |updated[p]| > 0 && DistinctKeys(updated[p]))
    && m == ModalLetter(updated)
    && |view| > 0 && Uniform(view, n)
    && (m.Pick? ==> exists w :: w in view && m.pos < |w| && w[m.pos] == m.letter)
  }

  /** Narrowing to a supported letter leaves a non-empty view of words having it there. */
  lemma NarrowKeeps(view: seq<Word>, n: nat, c: char, pos: nat)
    requires Uniform(view, n)
    requires exists w :: w in view && pos < |w| && w[pos] == c
    ensures |Narrow(view, c, pos)| > 0 && Uniform(Narrow(view, c, pos), n)
    ensures forall w :: w in Narrow(view, c, pos) ==> w in view && pos < |w| && w[pos] == c
  {
    var w :| w in view && pos < |w| && w[pos] == c;
    assert w in Narrow(view, c, pos);
  }

  /**
   One round of the outer loop, given the retry's promises: the narrowed view
   and the retried tables carry on, and the adopted position has closed.
   */
  lemma AdvanceStep(n: nat, view: seq<Word>, updated: Counts, m: Modal, view': seq<Word>, next: Working)
    requires Narrowing(n, view, updated, m) && m.Pick?
    requires view' == Narrow(view, m.letter, m.pos) && Uniform(view', n)
    requires RetryKeeps(Adopt(updated, m), GetCounts(view', n), next.tables)
    requires next.pick == ModalLetter(next.tables)
    requires next.pick.Pick? ==> Has(GetCounts(view', n)[next.pick.pos], next.pick.letter)
    ensures Narrowing(n, view', next.tables, next.pick)
    ensures |Unresolved(next.tables)| < |Unresolved(updated)|
  {
    NarrowKeeps(view, n, m.letter, m.pos);
    if next.pick.Pick? {
      Supported(view', n, next.pick.letter, next.pick.pos);
    }
    CloseOne(Unresolved(updated), m.pos);
  }

  /** Closing an open position leaves fewer open positions. */
  lemma CloseOne(open: set<nat>, p: nat)
    requires p in open
    ensures |open - {p}| < |open|
  {
    assert open == (open - {p}) + {p};
  }

  /**
   The greedy narrowing as a recursion: adopt the pick, narrow the view to it,
   retry against the narrowed view's counts, and go on until no pick is left;
   the guess is then the first word of the view. The guess is a word of the
   view carrying the current pick.
   */
  function Greedy(n: nat, view: seq<Word>, updated: Counts, m: Modal): (guess: Word)
    requires Narrowing(n, view, updated, m)
    ensures guess in view
    ensures m.Pick? ==> guess[m.pos] == m.letter
    decreases |Unresolved(updated)|
  {
    if m.NoLetter? then view[0]
    else
      NarrowKeeps(view, n, m.letter, m.pos);
      var next := Round(n, view, updated, m);
      Greedy(n, Narrow(view, m.letter, m.pos), next.tables, next.pick)
  }

  /**
   One round of the outer loop: adopt the pick, narrow the view to it, and
   retry against the narrowed view's counts. The narrowed view and the retried
   tables carry on, and the adopted position has closed.
   */
  function Round(n: nat, view: seq<Word>, updated: Counts, m: Modal): (next: Working)
    requires Narrowing(n, view, updated, m) && m.Pick?
    ensures Narrowing(n, Narrow(view, m.letter, m.pos), next.tables, next.pick)
    ensures |Unresolved(next.tables)| < |Unresolved(updated)|
  {
    RoundStarts(n, view, updated, m);
    var view' := Narrow(view, m.letter, m.pos);
    var next := RetryFrom(Adopt(updated, m), GetCounts(view', n), Adopt(updated, m));
    AdvanceStep(n, view, updated, m, view', next);
    next
  }

  /** The retry of a round starts from the adopted tables against the narrowed view's counts. */
  lemma RoundStarts(n: nat, view: seq<Word>, updated: Counts, m: Modal)
    requires Narrowing(n, view, updated, m) && m.Pick?
    ensures Uniform(Narrow(view, m.letter, m.pos), n)
    ensures RetryKeeps(Adopt(updated, m), GetCounts(Narrow(view, m.letter, m.pos), n), Adopt(updated, m))
  {
    NarrowKeeps(view, n, m.letter, m.pos);
    RetryStarts(Adopt(updated, m), GetCounts(Narrow(view, m.letter, m.pos), n));
  }

  /** Before the first zeroing the retry has kept everything. */
  lemma RetryStarts(counts: Counts, reduced: Counts)
    requires |reduced| == |counts|
    requires forall p :: 0 <= p < |counts| ==> |counts[p]| > 0 && DistinctKeys(counts[p])
    ensures RetryKeeps(counts, reduced, counts)
  {
  }

  /**
   The guess of the greedy narrowing over the candidates `d`: a candidate that
   carries the overall modal letter at its position.
   */
  function SearchResult(d: seq<Word>, n: nat): (guess: Word)
    requires |d| > 0 && Uniform(d, n)
    ensures guess in d
    ensures ModalLetter(GetCounts(d, n)).Pick? ==>
      guess[ModalLetter(GetCounts(d, n)).pos] == ModalLetter(GetCounts(d, n)).letter
  {
    NarrowingStarts(d, n);
    Greedy(n, d, GetCounts(d, n), ModalLetter(GetCounts(d, n)))
  }

  /** The search starts from a narrowing state: the whole candidate list and its counts. */
  lemma NarrowingStarts(d: seq<Word>, n: nat)
    requires |d| > 0 && Uniform(d, n)
    ensures Narrowing(n, d, GetCounts(d, n), ModalLetter(GetCounts(d, n)))
  {
    var counts := GetCounts(d, n);
    var m := ModalLetter(counts);
    PickIsStored(counts);
    if m.Pick? {
      Supported(d, n, m.letter, m.pos);
    }
  }

  /**
   The state of the loop of `Search`: the narrowing state, with a view that is
   the candidates narrowed by the adopted choices.
   */
  predicate SearchState(d: seq<Word>, n: nat, view: seq<Word>, adopted: seq<Choice>, updated: Counts, m: Modal)
  {
    && Narrowing(n, view, updated, m)
    && view == Narrowed(d, adopted)
    && (forall w :: w in view ==> w in d)
  }

  /**
   One round of the outer loop: adopt the pick, narrow the view to it, count the
   narrowed view, and retry until the next pick is feasible or none is left.
   The round is the first step of `Greedy`, so the eventual guess is unchanged,
   and the adopted position closes.
   */
  method AdoptStep(d: seq<Word>, n: nat, view: seq<Word>, ghost adopted: seq<Choice>, updated: Counts, m: Modal)
    returns (view': seq<Word>, ghost adopted': seq<Choice>, updated': Counts, m': Modal)
    requires SearchState(d, n, view, adopted, updated, m)
    requires m.Pick?
    ensures SearchState(d, n, view', adopted', updated', m')
    ensures adopted' == adopted + [Choice(m.letter, m.pos)]
    ensures view' == Narrow(view, m.letter, m.pos)
    ensures Working(updated', m') == Round(n, view, updated, m)
    ensures Greedy(n, view', updated', m') == Greedy(n, view, updated, m)
    ensures |Unresolved(updated')| < |Unresolved(updated)|
  {
    NarrowStep(d, adopted, view, m.letter, m.pos);
    view' := Narrow(view, m.letter, m.pos);
    adopted' := adopted + [Choice(m.letter, m.pos)];
    RoundStarts(n, view, updated, m);
    updated', m' := Retry(Adopt(updated, m), GetCounts(view', n));
    assert Working(updated', m') == Round(n, view, updated, m);
  }

  /**
   The greedy narrowing over a non-empty candidate list. It terminates (each
   adoption closes an open position) and computes `SearchResult`: the first
   candidate having every adopted letter, the first adoption being the overall
   modal letter.
   */
  method Search(d: seq<Word>, n: nat) returns (guess: Word, ghost adopted: seq<Choice>)
    requires |d| > 0 && Uniform(d, n)
    ensures guess == SearchResult(d, n)
    ensures guess in d
    ensures |Narrowed(d, adopted)| > 0 && guess == Narrowed(d, adopted)[0]
    ensures Matches(guess, adopted)
    ensures ModalLetter(GetCounts(d, n)).Pick? ==>
      guess[ModalLetter(GetCounts(d, n)).pos] == ModalLetter(GetCounts(d, n)).letter
  {
    var view := d;
    var updated := GetCounts(d, n);
    var m := ModalLetter(updated);
    adopted := [];
    FilterKeepsAll(d, w => Matches(w, adopted));
    NarrowingStarts(d, n);
    while m.Pick?
      invariant SearchState(d, n, view, adopted, updated, m)
      invariant Greedy(n, view, updated, m) == SearchResult(d, n)
      decreases |Unresolved(updated)|
    {
      view, adopted, updated, m := AdoptStep(d, n, view, adopted, updated, m);
    }
    guess := view[0];
    assert guess in view;
  }

  /**
   The modal-letter bot's answer in a given state: the search over the updated
   candidates, or a failure when none is left. The guess is a surviving
   candidate, consistent with the tables before the update.
   */
  function ModalGuess(b: Bot): (r: Result<Word>)
    requires Valid(b)
    ensures r.Failure? <==> |UpdateDictionary(b).dictionary| == 0
    ensures r.Failure? ==> r.error == NoCandidates
    ensures r.Success? ==> r.value in UpdateDictionary(b).dictionary
    ensures r.Success? ==> |r.value| == |b.letterCounts| && Consistent(r.value, b.letterCounts, b.known)
  {
    var d := UpdateDictionary(b).dictionary;
    if |d| == 0 then Failure(NoCandidates) else Success(SearchResult(d, |b.letterCounts|))
  }

  /**
   `guess`: update the candidates, then run the greedy narrowing over them. With
   no candidate left the selector fails (the maximum over an empty table raises).
   */
  method Guess(b: Bot) returns (r: Result<Word>, b': Bot)
    requires Valid(b)
    ensures b' == UpdateDictionary(b)
    ensures r == ModalGuess(b)
    ensures r.Failure? <==> |b'.dictionary| == 0
    ensures r.Failure? ==> r.error == NoCandidates
    ensures r.Success? ==> r.value == SearchResult(b'.dictionary, |b.letterCounts|)
    ensures r.Success? ==> r.value in b'.dictionary
    ensures r.Success? ==> Consistent(r.value, b.letterCounts, b.known)
    ensures r.Success? ==> var first := ModalLetter(b'.letterCounts); first.Pick? ==> r.value[first.pos] == first.letter
  {
    b' := UpdateDictionary(b);
    if |b'.dictionary| == 0 {
      return Failure(NoCandidates), b';
    }
    var guess;
    ghost var adopted;
    guess, adopted := Search(b'.dictionary, |b.letterCounts|);
    r := Success(guess);
  }
}

=== FILE: random_start.dfy ===
/**
 The random-start bot: while the update removes no candidate (the first guess
 of a round) it guesses a candidate at random; otherwise it runs the same greedy
 modal-letter narrowing as the modal-letter bot. The random draw is a parameter.
 */
module RandomStartBot {
  import opened Errors
  import opened WordleBot
  import opened ModalLetterBot

  /**
   `guess`: update the candidates; if none was removed, the candidate at index
   `pick` (reduced to the candidates' range) is the guess, else the first
   candidate of the narrowed view. No candidate left fails either way.
   */
  method Guess(b: Bot, pick: nat) returns (r: Result<Word>, b': Bot)
    requires Valid(b)
    ensures b' == UpdateDictionary(b)
    ensures r.Failure? <==> |b'.dictionary| == 0
    ensures r.Failure? ==> r.error == NoCandidates
    ensures r.Success? ==> r.value in b'.dictionary && Consistent(r.value, b.letterCounts, b.known)
    ensures r.Success? && b'.dictionary == b.dictionary ==> r.value == b.dictionary[pick % |b.dictionary|]
    ensures r.Success? && b'.dictionary != b.dictionary ==> r.value == SearchResult(b'.dictionary, |b.letterCounts|)
    ensures r.Success? && b'.dictionary != b.dictionary ==>
      var first := ModalLetter(b'.letterCounts); first.Pick? ==> r.value[first.pos] == first.letter
    ensures b == Fresh(b.wordList, |b.letterCounts|) ==> r == Success(b.wordList[pick % |b.wordList|])
  {
    var dictlen := |b.dictionary|;
    b' := UpdateDictionary(b);
    if b == Fresh(b.wordList, |b.letterCounts|) {
      FreshIsStable(b.wordList, |b.letterCounts|);
    }
    if |b'.dictionary| == 0 {
      return Failure(NoCandidates), b';
    }
    if |b'.dictionary| == dictlen {
      assert b'.dictionary == b.dictionary;
      return Success(b'.dictionary[pick % |b'.dictionary|]), b';
    }
    var guess;
    ghost var adopted;
    guess, adopted := Search(b'.dictionary, |b.letterCounts|);
    r := Success(guess);
  }
}

=== FILE: seqs.dfy ===
/**
 Order-preserving selection from a sequence: the row selections the solver
 applies to its word table (`df[mask]`, `df.drop(index=...)`).
 */
module Seqs {

  /** The elements of `s` that satisfy `f`, in their original order. */
  function Filter<T(!new)>(s: seq<T>, f: T -> bool): (r: seq<T>)
    ensures |r| <= |s|
    ensures forall x :: x in r <==> x in s && f(x)
  {
    if |s| == 0 then []
    else if f(s[0]) then [s[0]] + Filter(s[1..], f)
    else Filter(s[1..], f)
  }

  /** No element occurs twice. */
  predicate Distinct<T(==,!new)>(s: seq<T>)
  {
    forall i, j :: 0 <= i < j < |s| ==> s[i] != s[j]
  }

  /** Filtering distributes over concatenation: the selection keeps the original order. */
  lemma {:induction false} FilterAppend<T(!new)>(a: seq<T>, b: seq<T>, f: T -> bool)
    ensures Filter(a + b, f) == Filter(a, f) + Filter(b, f)
  {
    if |a| > 0 {
      assert (a + b)[1..] == a[1..] + b;
      FilterAppend(a[1..], b, f);
    } else {
      assert a + b == b;
    }
  }

  /** A selection that every element passes changes nothing. */
  lemma {:induction false} FilterKeepsAll<T(!new)>(s: seq<T>, f: T -> bool)
    requires forall i :: 0 <= i < |s| ==> f(s[i])
    ensures Filter(s, f) == s
  {
    if |s| > 0 {
      FilterKeepsAll(s[1..], f);
    }
  }

  /** A selection that some element fails makes the sequence strictly shorter. */
  lemma {:induction false} FilterDrops<T(!new)>(s: seq<T>, f: T -> bool, x: T)
    requires x in s && !f(x)
    ensures |Filter(s, f)| < |s|
  {
    if s[0] != x {
      FilterDrops(s[1..], f, x);
    }
  }

  /** Selecting twice is selecting once by the conjunction. */
  lemma {:induction false} FilterTwice<T(!new)>(s: seq<T>, f: T -> bool, g: T -> bool, h: T -> bool)
    requires forall x :: h(x) == (f(x) && g(x))
    ensures Filter(Filter(s, f), g) == Filter(s, h)
  {
    if |s| > 0 {
      FilterTwice(s[1..], f, g, h);
      var head := if f(s[0]) then [s[0]] else [];
      FilterAppend(head, Filter(s[1..], f), g);
    }
  }

  /** A selection of a sequence without repetitions has none either. */
  lemma {:induction false} FilterDistinct<T(!new)>(s: seq<T>, f: T -> bool)
    requires Distinct(s)
    ensures Distinct(Filter(s, f))
  {
    if |s| > 0 {
      FilterDistinct(s[1..], f);
      assert s[0] !in s[1..];
    }
  }

  /** A sequence without repetitions has as many elements as distinct values. */
  lemma {:induction false} DistinctCard<T(!new)>(s: seq<T>)
    requires Distinct(s)
    ensures |(set x | x in s)| == |s|
  {
    if |s| > 0 {
      DistinctCard(s[1..]);
      assert s[0] !in s[1..];
      assert (set x | x in s) == {s[0]} + (set x | x in s[1..]);
    }
  }

  /** A sequence without repetitions all of whose elements equal `w` has at most one element. */
  lemma OnlyOne<T(!new)>(s: seq<T>, w: T)
    requires Distinct(s)
    requires forall x :: x in s ==> x == w
    ensures |s| <= 1
  {
    DistinctCard(s);
    var values := set x | x in s;
    if w in values {
      assert values == {w};
    } else {
      assert values == {};
    }
  }

  /** Concatenation is associative. */
  lemma AppendAssoc<T>(a: seq<T>, b: seq<T>, c: seq<T>)
    ensures a + (b + c) == (a + b) + c
  {
  }

  /** Every element of `xs` lies between `lo` and `hi`. */
  predicate InRange(xs: seq<int>, lo: int, hi: int)
  {
    forall i :: 0 <= i < |xs| ==> lo <= xs[i] <= hi
  }

  /** Appending an element in range keeps a sequence in range. */
  lemma InRangeSnoc(xs: seq<int>, lo: int, hi: int, v: int)
    requires InRange(xs, lo, hi) && lo <= v <= hi
    ensures InRange(xs + [v], lo, hi)
  {
  }

  /** Indexing past the first part of a concatenation indexes the second part. */
  lemma AppendIndex<T>(a: seq<T>, b: seq<T>, i: nat, j: nat)
    requires |a| <= i < |a| + |b| && j == i - |a|
    ensures (a + b)[i] == b[j]
  {
  }

  /** Moving the head of the rest onto the end of the prefix keeps the whole. */
  lemma SnocSplit<T>(all: seq<T>, prefix: seq<T>, v: T, tail: seq<T>)
    requires all == prefix + ([v] + tail)
    ensures all == (prefix + [v]) + tail
  {
    AppendAssoc(prefix, [v], tail);
  }

  /** Appending nothing leaves a sequence unchanged. */
  lemma AppendNil<T>(a: seq<T>)
    ensures a + [] == a
  {
  }
}

=== FILE: wordle_bot.dfy ===
/**
 The solver's constraint store and candidate filter. A bot keeps the full word
 list, the current candidate dictionary, one letter-count table per letter
 position, and the set of letters known to be in the answer. Green, yellow and
 black feedback edit the tables; `UpdateDictionary` keeps the words consistent
 with them and recounts the tables from the survivors.
 */
module WordleBot {
  import opened CountTable
  import opened Seqs
  import opened Errors

  type Word = string

  /** One letter-count table per letter position. */
  type Counts = seq<Table<char>>

  datatype Bot = Bot(wordList: seq<Word>, dictionary: seq<Word>, letterCounts: Counts, known: set<char>)

  /** Every word has `n` letters. */
  predicate Uniform(words: seq<Word>, n: nat)
  {
    forall w :: w in words ==> |w| == n
  }

  /** Every word has at least `n` letters. */
  predicate LongEnough(words: seq<Word>, n: nat)
  {
    forall i :: 0 <= i < |words| ==> n <= |words[i]|
  }

  /** The letters the words have at position `p`, in word order. */
  function Column(words: seq<Word>, p: nat): (col: seq<char>)
    requires forall w :: w in words ==> p < |w|
    ensures |col| == |words|
    ensures forall k :: 0 <= k < |words| ==> col[k] == words[k][p]
  {
    seq(|words|, k requires 0 <= k < |words| => words[k][p])
  }

  /**
   The letter-count table of one position: one entry per letter that occurs
   there, counting the words that have it there, the most frequent letter first.
   */
  function PositionCounts(words: seq<Word>, p: nat): (t: Table<char>)
    requires forall w :: w in words ==> p < |w|
    ensures DistinctKeys(t) && Positive(t) && Sum(t) == |words|
    ensures forall ch :: Get(t, ch) == multiset(Column(words, p))[ch]
    ensures forall ch :: Has(t, ch) <==> exists w :: w in words && w[p] == ch
    ensures forall i, j :: 0 <= i < j < |t| ==> t[i].count >= t[j].count
  {
    var col := Column(words, p);
    InColumn(words, p);
    var t := Tally(col);
    var r := SortDesc(t);
    assert forall e :: e in r ==> e.count >= 1;
    assert forall ch :: Has(r, ch) <==> ch in col by {
      forall ch
        ensures Has(r, ch) <==> ch in col
      {
        assert Has(r, ch) == Has(t, ch);
      }
    }
    r
  }

  /** A letter is in a column exactly when some word has it at that position. */
  lemma InColumn(words: seq<Word>, p: nat)
    requires forall w :: w in words ==> p < |w|
    ensures forall ch :: ch in Column(words, p) <==> exists w :: w in words && w[p] == ch
  {
    var col := Column(words, p);
    forall ch
      ensures ch in col <==> exists w :: w in words && w[p] == ch
    {
      if ch in col {
        var k :| 0 <= k < |words| && col[k] == ch;
        assert words[k] in words;
      }
      if exists w :: w in words && w[p] == ch {
        var w :| w in words && w[p] == ch;
        var k :| 0 <= k < |words| && words[k] == w;
        assert col[k] == ch;
      }
    }
  }

  /** `get_counts`: the letter-count tables of a list of words, one per position. */
  function GetCounts(words: seq<Word>, n: nat): (c: Counts)
    requires Uniform(words, n)
    ensures |c| == n
    ensures forall p :: 0 <= p < n ==> DistinctKeys(c[p]) && Positive(c[p]) && Sum(c[p]) == |words|
    ensures forall p, ch :: 0 <= p < n ==> Get(c[p], ch) == multiset(Column(words, p))[ch]
    ensures forall p, ch :: 0 <= p < n ==> (Has(c[p], ch) <==> exists w :: w in words && w[p] == ch)
    ensures forall p, i, j :: 0 <= p < n && 0 <= i < j < |c[p]| ==> c[p][i].count >= c[p][j].count
  {
    seq(n, p requires 0 <= p < n => PositionCounts(words, p))
  }

  /** A word agrees with every table and contains every known letter. */
  predicate Consistent(w: Word, counts: Counts, known: set<char>)
  {
    && |w| == |counts|
    && (forall p :: 0 <= p < |counts| ==> Has(counts[p], w[p]))
    && (forall c :: c in known ==> c in w)
  }

  /** The state every bot keeps: words of one length, candidates drawn from the word list, tables that are dictionaries. */
  predicate Valid(b: Bot)
  {
    && |b.wordList| > 0
    && Uniform(b.wordList, |b.letterCounts|)
    && (forall w :: w in b.dictionary ==> w in b.wordList)
    && (forall p :: 0 <= p < |b.letterCounts| ==> DistinctKeys(b.letterCounts[p]))
  }

  /** The state at the start of a round: every word a candidate, full counts, nothing known. */
  function Fresh(words: seq<Word>, n: nat): (b: Bot)
    requires Uniform(words, n)
    ensures |words| > 0 ==> Valid(b)
    ensures |b.letterCounts| == n
    ensures forall p, ch :: 0 <= p < n ==> (Has(b.letterCounts[p], ch) <==> exists w :: w in words && w[p] == ch)
  {
    Bot(words, words, GetCounts(words, n), {})
  }

  /** `__init__`: the table width is the length of the words. */
  function Init(dictionary: seq<Word>): (b: Bot)
    requires |dictionary| > 0
    requires Uniform(dictionary, |dictionary[|dictionary| - 1]|)
    ensures Valid(b)
    ensures b.wordList == dictionary && b.dictionary == dictionary && b.known == {}
    ensures b.letterCounts == GetCounts(dictionary, |dictionary[|dictionary| - 1]|)
    ensures forall p, ch :: 0 <= p < |b.letterCounts| ==> (Has(b.letterCounts[p], ch) <==> exists w :: w in dictionary && w[p] == ch)
  {
    Fresh(dictionary, |dictionary[|dictionary| - 1]|)
  }

  /** `reset`: rebuild the five-column word table and start a new round. */
  function Reset(b: Bot): (r: Result<Bot>)
    requires Valid(b)
    ensures r.Failure? <==> |b.letterCounts| != 5
    ensures r.Failure? ==> r.error == ColumnMismatch
    ensures r.Success? ==> Valid(r.value) && r.value.wordList == b.wordList
    ensures r.Success? ==> r.value.dictionary == b.wordList && r.value.known == {}
    ensures r.Success? ==> r.value.letterCounts == GetCounts(b.wordList, 5)
  {
    if |b.letterCounts| != 5 then Failure(ColumnMismatch) else Success(Fresh(b.wordList, 5))
  }

  /** `update_dictionary`: keep the consistent candidates, in order, then recount the tables. */
  function UpdateDictionary(b: Bot): (r: Bot)
    requires Valid(b)
    ensures Valid(r)
    ensures r.wordList == b.wordList && r.known == b.known
    ensures r.dictionary == Survivors(b.dictionary, b.letterCounts, b.known)
    ensures forall w :: w in r.dictionary <==> w in b.dictionary && Consistent(w, b.letterCounts, b.known)
    ensures |r.dictionary| <= |b.dictionary|
    ensures r.letterCounts == GetCounts(r.dictionary, |b.letterCounts|)
    ensures forall p, ch :: 0 <= p < |b.letterCounts| && Has(r.letterCounts[p], ch) ==> Has(b.letterCounts[p], ch)
    ensures (exists w :: w in b.dictionary && !Consistent(w, b.letterCounts, b.known)) ==> |r.dictionary| < |b.dictionary|
    ensures (forall w :: w in b.dictionary ==> Consistent(w, b.letterCounts, b.known)) ==> r.dictionary == b.dictionary
  {
    var n := |b.letterCounts|;
    var d := Survivors(b.dictionary, b.letterCounts, b.known);
    KeysShrink(b.letterCounts, b.known, d);
    Bot(b.wordList, d, GetCounts(d, n), b.known)
  }

  /**
   The words, in order, consistent with the tables and the known letters. Some
   word inconsistent makes the selection strictly smaller; none leaves it as is.
   */
  function Survivors(d: seq<Word>, counts: Counts, known: set<char>): (r: seq<Word>)
    ensures forall w :: w in r <==> w in d && Consistent(w, counts, known)
    ensures |r| <= |d|
    ensures (exists w :: w in d && !Consistent(w, counts, known)) ==> |r| < |d|
    ensures (forall w :: w in d ==> Consistent(w, counts, known)) ==> r == d
  {
    var f := w => Consistent(w, counts, known);
    if exists w :: w in d && !Consistent(w, counts, known) then
      var w :| w in d && !Consistent(w, counts, known);
      FilterDrops(d, f, w);
      Filter(d, f)
    else
      assert forall i :: 0 <= i < |d| ==> f(d[i]) by {
        forall i | 0 <= i < |d|
          ensures f(d[i])
        {
          assert d[i] in d;
        }
      }
      FilterKeepsAll(d, f);
      Filter(d, f)
  }

  /** The selection keeps the candidates' order: it distributes over concatenation. */
  lemma SurvivorsKeepOrder(d1: seq<Word>, d2: seq<Word>, counts: Counts, known: set<char>)
    ensures Survivors(d1 + d2, counts, known) == Survivors(d1, counts, known) + Survivors(d2, counts, known)
  {
    FilterAppend(d1, d2, w => Consistent(w, counts, known));
  }

  /** The tables counted from consistent words only hold letters the old tables held. */
  lemma KeysShrink(counts: Counts, known: set<char>, d: seq<Word>)
    requires forall w :: w in d ==> Consistent(w, counts, known)
    ensures Uniform(d, |counts|)
    ensures forall p, ch :: 0 <= p < |counts| && Has(GetCounts(d, |counts|)[p], ch) ==> Has(counts[p], ch)
  {
    var c := GetCounts(d, |counts|);
    forall p, ch | 0 <= p < |counts| && Has(c[p], ch)
      ensures Has(counts[p], ch)
    {
      var w :| w in d && w[p] == ch;
      assert Consistent(w, counts, known);
    }
  }

  /** `black`: the letter is removed from every table; nothing else changes. */
  function Black(b: Bot, c: char): (r: Bot)
    ensures r.wordList == b.wordList && r.dictionary == b.dictionary && r.known == b.known
    ensures |r.letterCounts| == |b.letterCounts|
    ensures forall p, x :: 0 <= p < |b.letterCounts| ==> (Has(r.letterCounts[p], x) <==> Has(b.letterCounts[p], x) && x != c)
    ensures forall p, c' :: 0 <= p < |b.letterCounts| && c' != c ==> Get(r.letterCounts[p], c') == Get(b.letterCounts[p], c')
    ensures forall p :: 0 <= p < |b.letterCounts| && !Has(b.letterCounts[p], c) ==> r.letterCounts[p] == b.letterCounts[p]
  {
    b.(letterCounts := RemoveEach(b.letterCounts, c))
  }

  /** Every table with the letter removed. */
  function RemoveEach(counts: Counts, c: char): (r: Counts)
    ensures |r| == |counts|
    ensures forall p :: 0 <= p < |counts| ==> r[p] == Remove(counts[p], c)
  {
    if |counts| == 0 then [] else [Remove(counts[0], c)] + RemoveEach(counts[1..], c)
  }

  /** `yellow`: the letter is removed from its own position's table only and becomes known. */
  function Yellow(b: Bot, c: char, p: nat): (r: Bot)
    requires p < |b.letterCounts|
    ensures r.wordList == b.wordList && r.dictionary == b.dictionary
    ensures r.known == b.known + {c}
    ensures |r.letterCounts| == |b.letterCounts|
    ensures forall x :: Has(r.letterCounts[p], x) <==> Has(b.letterCounts[p], x) && x != c
    ensures forall c' :: c' != c ==> Get(r.letterCounts[p], c') == Get(b.letterCounts[p], c')
    ensures forall q :: 0 <= q < |b.letterCounts| && q != p ==> r.letterCounts[q] == b.letterCounts[q]
  {
    Bot(b.wordList, b.dictionary, b.letterCounts[p := Remove(b.letterCounts[p], c)], b.known + {c})
  }

  /** `green`: the position is resolved to the letter alone; nothing else changes. */
  function Green(b: Bot, c: char, p: nat): (r: Bot)
    requires p < |b.letterCounts|
    ensures r.wordList == b.wordList && r.dictionary == b.dictionary && r.known == b.known
    ensures |r.letterCounts| == |b.letterCounts|
    ensures forall x :: Has(r.letterCounts[p], x) <==> x == c
    ensures |r.letterCounts[p]| == 1 && Get(r.letterCounts[p], c) == 1
    ensures forall q :: 0 <= q < |b.letterCounts| && q != p ==> r.letterCounts[q] == b.letterCounts[q]
  {
    var t := [Entry(c, 1)];
    assert Keys(t) == {c} + Keys(t[1..]) && t[1..] == [];
    b.(letterCounts := b.letterCounts[p := t])
  }

  /** Every word of a list agrees with the tables counted from that list. */
  lemma {:induction false} CountsAdmitAll(words: seq<Word>, n: nat)
    requires Uniform(words, n)
    ensures forall w :: w in words ==> Consistent(w, GetCounts(words, n), {})
  {
    var c := GetCounts(words, n);
    forall w | w in words
      ensures Consistent(w, c, {})
    {
      forall p | 0 <= p < n
        ensures Has(c[p], w[p])
      {
        assert exists v :: v in words && v[p] == w[p];
      }
    }
  }

  /** A second update with no feedback in between removes nothing. */
  lemma {:induction false} UpdateIdempotent(b: Bot)
    requires Valid(b)
    ensures UpdateDictionary(UpdateDictionary(b)) == UpdateDictionary(b)
  {
    var r := UpdateDictionary(b);
    CountsAdmitAll(r.dictionary, |b.letterCounts|);
  }

  /** At the start of a round the update removes nothing and recounts the same tables. */
  lemma {:induction false} FreshIsStable(words: seq<Word>, n: nat)
    requires |words| > 0 && Uniform(words, n)
    ensures UpdateDictionary(Fresh(words, n)) == Fresh(words, n)
  {
    CountsAdmitAll(words, n);
  }

  /** For five-letter words, `reset` restores exactly the state `__init__` built. */
  lemma ResetMatchesInit(b: Bot)
    requires Valid(b)
    requires |b.letterCounts| == 5
    ensures Reset(b) == Success(Init(b.wordList))
  {
    assert b.wordList[|b.wordList| - 1] in b.wordList;
  }

  /** Two words consistent with tables of one letter each are the same word. */
  lemma ResolvedAgree(counts: Counts, known: set<char>, v: Word, w: Word)
    requires forall p :: 0 <= p < |counts| ==> |Keys(counts[p])| == 1
    requires Consistent(v, counts, known) && Consistent(w, counts, known)
    ensures v == w
  {
    forall p | 0 <= p < |counts|
      ensures v[p] == w[p]
    {
      var k := Keys(counts[p]);
      var only :| only in k;
      assert |k - {only}| == 0;
      assert v[p] !in k - {only} && w[p] !in k - {only};
    }
  }

  /** Distinct candidates against tables of one letter each: at most one survives. */
  lemma {:induction false} ResolvedSurvivors(d: seq<Word>, counts: Counts, known: set<char>)
    requires Distinct(d)
    requires forall p :: 0 <= p < |counts| ==> |Keys(counts[p])| == 1
    ensures |Survivors(d, counts, known)| <= 1
  {
    var r := Survivors(d, counts, known);
    FilterDistinct(d, w => Consistent(w, counts, known));
    if |r| > 0 {
      var first := r[0];
      assert first in r;
      forall w | w in r
        ensures w == first
      {
        ResolvedAgree(counts, known, w, first);
      }
      OnlyOne(r, first);
    }
  }

  /**
   When every position is resolved to one letter and the candidates are distinct,
   the update leaves at most one candidate.
   */
  lemma ResolvedLeavesOne(b: Bot)
    requires Valid(b)
    requires Distinct(b.dictionary)
    requires forall p :: 0 <= p < |b.letterCounts| ==> |Keys(b.letterCounts[p])| == 1
    ensures |UpdateDictionary(b).dictionary| <= 1
  {
    ResolvedSurvivors(b.dictionary, b.letterCounts, b.known);
  }
}
